=== FILE: README.md ===
# Waste-collection simulation of Nizhny Novgorod, in Dafny

This project models the core of a simulation of municipal waste collection, together
with the data preparation that feeds it.

- **Dispatchers** watch the container sites ("dumpsters"). When at least sixteen of them
  are more than 70% full and not yet in an order, a dispatcher bundles exactly those
  sites into a new collection order. Vehicles claim orders one at a time: each claim
  takes the first free order in creation order.
- **Vehicles** drive their order's route through the sites and empty each site they
  stop at. Then they haul the load to the landfill, unload it, drop the order and wait
  a minute. A vehicle without an order drives to the garage instead. Routes come from
  a routing service that may fail.
- **The city** records snapshots in one append-only log per kind of agent. It keeps
  the sites by uid and reports their total load.
- **Admission** filters the registry records. It decides which sites and which houses
  enter the simulation.
- **The geocoder** normalizes an address into its parts: postal code, region, city,
  street, house and building.
- **Geoprocessing** prepares the data:
  - it reads the site registry from its district sheets;
  - it snaps each site to the road;
  - it links each house to the site nearest to it on foot.

Every operation is a pure function over immutable values. Each resumption of a
simulated process is one atomic transition over an explicit `City` record. Each
resumption returns the delay until the next one.

| file | module | what it holds |
|---|---|---|
| wrappers.dfy | Wrappers | `Option` and `Result` |
| tables.dfy | Tables | insertion-ordered dictionaries: `Put` keeps an existing key's place and appends a new key |
| text.dfy | Text | `split`, `join`, `strip`, `replace` and "last word", with their algebra |
| numerics.dfy | Numerics | round-half-to-even and `isclose` |
| resources.dfy | Resources | sites and orders: only the fields and effects the agents use |
| dispatching.dfy | Dispatching | order formation and claiming |
| simulation.dfy | Simulation | the state logs, the site table, `status`, and city consistency |
| vehicles.dfy | Vehicles | the vehicle's state machine |
| admission.dfy | Admission | the site and house admission filters |
| geocoder.dfy | Geocoder | address normalization and the city prefix |
| geoprocessing.dfy | Geoprocessing | registry keys, road snapping, the candidate window and the nearest-site choice |

### How the vehicle is modelled

A vehicle's program counter `Pc` records where its process is suspended:

- `Start`: before the first resumption.
- `Driving(movement, plan, index)`: on a one-second tick of a route.
- `Loading`: at a site, for 120 s.
- `Unloading`: at the landfill, for 1200 s.
- `Resting`: the 60 s wait at the end of each loop iteration.

A route reply is flattened into a plan of events. There is one `Tick` per half second
of step duration, as rounded, and a `LegEnd` after each leg. The callbacks registered
on an awaited event run at the start of the next resumption, at the same simulated
time. These callbacks are the tick snapshot, and the snapshot after a load or an
unload.

`Ready` is the invariant every resumption keeps:

- the city is `Consistent`: every site stamped with an order is listed in that order
  by some dispatcher, and orders list only known sites;
- the order the vehicle holds lists only known sites;
- the site it is loading at belongs to its order.

## Model

| member | source | states |
|---|---|---|
| Dispatching.Collect | source/images/simulator/app/agents/dispatcher.py:47-50 | a site is collected iff it is in the table, more than 70% full and without an order; each site at most once, in table order |
| Dispatching.CollectFrom | source/images/simulator/app/agents/dispatcher.py:48-50 | the collected keys are exactly the qualifying ones among the given keys, never more than there are keys, and without repeats when the keys have none |
| Dispatching.CollectFromInOrder | source/images/simulator/app/agents/dispatcher.py:48-50 | the collected keys are picked from the given keys at strictly increasing positions, so they keep the keys' order |
| Dispatching.StampAll | source/images/simulator/app/agents/dispatcher.py:63-64 | every listed site gets the order uid; every other site and the key order are unchanged |
| Dispatching.Scan | source/images/simulator/app/agents/dispatcher.py:52-64 | below 16 qualifying sites nothing changes; otherwise one order over exactly the qualifying sites is stored under the fresh uid, and exactly those sites are stamped with it |
| Dispatching.ScanLeavesIneligibleAlone | source/images/simulator/app/agents/dispatcher.py:48-50 | a site that is not above the threshold, or already has an order, is untouched and in no new order |
| Dispatching.ScanCreatesExactOrder | source/images/simulator/app/agents/dispatcher.py:53-64 | a created order is unclaimed, targets the landfill, lists exactly the qualifying sites, and each of them carries its uid |
| Dispatching.ScanOnlyAddsOrders | source/images/simulator/app/agents/dispatcher.py:54-62 | with a fresh uid the order table only grows at its end; earlier orders keep their place and contents |
| Dispatching.Resume | source/images/simulator/app/agents/dispatcher.py:40-64 | the first resumption only starts the wait; every later one follows a full timeout wait and scans; each returns the timeout as its delay |
| Dispatching.FirstFree | source/images/simulator/app/agents/dispatcher.py:70-71 | the position of the first order without a vehicle, in insertion order; none iff every order is taken |
| Dispatching.GetOrder | source/images/simulator/app/agents/dispatcher.py:67-73 | the first free order is returned and recorded as the caller's; with no free order nothing changes |
| Dispatching.ClaimIsSetOnce | source/images/simulator/app/agents/dispatcher.py:70-73 | a claim never changes an order that already has a vehicle, nor the table's keys and their order |
| Dispatching.ClaimsAreDistinct | source/images/simulator/app/agents/dispatcher.py:70-73 | a second claim gets an order strictly later in insertion order than the first claim's |
| Vehicles.LegsOf | source/images/simulator/app/agents/vehicle.py:105-108 | the legs of `trips[0]` when the reply has trips, otherwise those of `routes[0]`; none when the chosen array is empty or missing |
| Vehicles.PlanShape | source/images/simulator/app/agents/vehicle.py:110-127 | a route's drive has one leg end per leg and one one-second tick per rounded half second of step duration |
| Vehicles.StepTickPositions | source/images/simulator/app/agents/vehicle.py:113-119 | a step has ticks only when its doubled duration rounds above zero, and tick n stands at fraction n/count of the step's path |
| Vehicles.DrivingSnapshot | source/images/simulator/app/agents/vehicle.py:95-99 | after a tick the state is logged exactly when the time is a multiple of ten |
| Vehicles.PercentLevel | source/images/simulator/app/agents/vehicle.py:87 | the reported fill is value/capacity while the load fits and 1 once it reaches the capacity; never above one, never negative for a non-negative load |
| Vehicles.FindSite | source/images/simulator/app/agents/vehicle.py:223-227 | the first site of the order, in the order's own order, within tolerance in both coordinates; none iff no site is |
| Vehicles.Advance | source/images/simulator/app/agents/vehicle.py:110-127 | driving on from an event suspends at the first one that is a tick or, on the collecting route only, a leg end with a site of the order within tolerance; every event passed over is a leg end with no such site; a tick suspends at its own position for its delay; a load suspends at the first such site in the order's own order, having added that site's load; with no such event left the vehicle arrives unchanged; the city and the order are never changed |
| Vehicles.LoadAddsSiteValue | source/images/simulator/app/agents/vehicle.py:223-234 | a load adds exactly what the matched site held to the vehicle's load, with no cap, at the vehicle's position, for a site of the order |
| Vehicles.LoadEmptiesSite | source/images/simulator/app/agents/vehicle.py:236-240 | a completed load logs the state and clears that one site (value 0, no order); no other site changes |
| Vehicles.ClearSite | source/images/simulator/app/agents/vehicle.py:239 | only the cleared site changes, and the city stays consistent |
| Vehicles.Move | source/images/simulator/app/agents/vehicle.py:146-151 | a reply whose code is not "Ok" leaves the vehicle and the city as they were; a movement never changes the city or the order held |
| Vehicles.Continue | source/images/simulator/app/agents/vehicle.py:257-260 | a fault of the movement is a fault of the process; otherwise the city is passed on, the wait is the program counter's delay, a held order is kept, and a load happens only on the collecting route, as the suspended vehicle |
| Vehicles.Finish | source/images/simulator/app/agents/vehicle.py:259-266 | after a movement ends the city is unchanged, the wait is the program counter's delay, and the vehicle is never left on the collecting route or loading |
| Vehicles.DisposalEmpties | source/images/simulator/app/agents/vehicle.py:188-193 | a completed disposal route sets the load to 0, whatever it was, and waits the twenty-minute unload |
| Vehicles.DisposalFailureKeepsLoad | source/images/simulator/app/agents/vehicle.py:177-180 | an unroutable landfill skips the unload: the load stays on board, the order is dropped, the vehicle waits a minute |
| Vehicles.UnloadClosesOrder | source/images/simulator/app/agents/vehicle.py:260-266 | when the unload ends the state is logged, the order is dropped and the one-minute wait starts |
| Vehicles.Claim | source/images/simulator/app/agents/vehicle.py:250-255 | only the first dispatcher is asked; its orders change as in a claim, everything else stays as it was |
| Vehicles.ClaimConsistent | source/images/simulator/app/agents/vehicle.py:250-255 | a claim keeps the city consistent, and the claimed order lists only known sites |
| Vehicles.SameListsConsistent | source/images/simulator/app/agents/dispatcher.py:70-73 | replacing the first dispatcher's orders by ones with the same uids and site lists keeps the city consistent |
| Vehicles.OnlyFirstDispatcher | source/images/simulator/app/agents/vehicle.py:250-255 | an idle vehicle asks only the first dispatcher and fails when there is none; a vehicle holding an order asks nobody |
| Vehicles.Depart | source/images/simulator/app/agents/vehicle.py:257-264 | setting off on a movement changes no dispatcher, site or log, waits the new program counter's delay and keeps the vehicle ready |
| Vehicles.Top | source/images/simulator/app/agents/vehicle.py:248-264 | the top of the loop only changes the first dispatcher, and only when the vehicle has no order; the vehicle stays ready |
| Vehicles.Resume | source/images/simulator/app/agents/vehicle.py:244-266 | each resumption keeps `Ready`, waits its program counter's delay, never ends in the start state, only appends to the vehicle log, never touches the dispatcher log and never adds or removes sites |
| Numerics.RoundHalfEven | source/images/simulator/app/agents/vehicle.py:114 | `round` returns an integer within one half of its argument, the even one on a tie |
| Numerics.RoundNearest | source/images/simulator/app/agents/vehicle.py:114 | `round` returns the only integer strictly closer than one half |
| Numerics.RoundInteger | source/images/simulator/app/main.py:177 | rounding an integer gives it back |
| Numerics.IsCloseCoordinates | source/images/simulator/app/agents/vehicle.py:224-226 | for coordinates, `isclose` with an absolute tolerance of 1e-4 is exactly "within 1e-4", and it is symmetric |
| Tables.Put | source/images/simulator/app/main.py:68 | storing under a key replaces its value; a new key goes to the end of the order, an existing one keeps its place |
| Tables.Get | source/images/simulator/app/main.py:73 | a lookup finds a value iff the key is present, and that value is the stored one |
| Tables.Update | source/images/geoprocessing/app/main.py:45-58 | replacing some values keeps the keys and their order and every other value |
| Tables.PutAllKeys | source/images/geoprocessing/app/main.py:38 | storing pairs in turn leaves the earlier keys plus every pair's key, and each value is the earlier one or some pair's |
| Tables.PutAllLast | source/images/geoprocessing/app/main.py:38 | the last pair with a key gives that key its value |
| Tables.PutAllKeeps | source/images/geoprocessing/app/main.py:38 | a key no pair has keeps its value |
| Tables.PutAllPrefix | source/images/geoprocessing/app/main.py:38 | the earlier keys keep their places at the front; every key after them is new and comes from some pair |
| Tables.PutAllOrder | source/images/geoprocessing/app/main.py:38 | the new keys are in the order of the first pair that brings each |
| Tables.PutAllAppend | source/images/geoprocessing/app/main.py:16-38 | storing one list of pairs and then another is storing the two one after the other |
| Simulation.SetDispatcherState | source/images/simulator/app/main.py:97-100 | a dispatcher sample is appended to the vehicle log; the dispatcher log and the others are unchanged |
| Simulation.ReplayLogs | source/images/simulator/app/main.py:75-117 | after any sequence of recordings each query yields exactly the samples appended to its log, in call order, whatever its filters; the dispatcher query yields nothing |
| Simulation.AddThenGet | source/images/simulator/app/main.py:65-73 | looking up a site just added returns it, empty and without an order; every other uid reads as before |
| Simulation.StatusAfterChanges | source/images/simulator/app/main.py:36-45 | the total load is unchanged by adding an empty site under a new uid, and drops by exactly a site's load when that site is cleared |
| Simulation.SumValuesUpdate | source/images/simulator/app/main.py:41-43 | changing one site's load changes the total by the difference |
| Simulation.DispatcherStep | source/images/simulator/app/agents/dispatcher.py:40-64 | a dispatcher's resumption changes only that dispatcher and the sites, returns its timeout, and keeps the city consistent given a fresh uid |
| Simulation.DispatcherStepConsistent | source/images/simulator/app/agents/dispatcher.py:48-64 | an order created over consistent sites with a fresh uid keeps every stamped site backed by an order listing it |
| Admission.AdmitSite | source/images/simulator/app/main.py:157-197 | a site is admitted iff it has a two-element location, a district containing "Нижегородский", a numeric non-empty capacity and a truthy count that `int` accepts (a number is truncated); its capacity becomes round(capacity*1000) and the location pair is read as longitude, latitude; it aborts iff the location is a pair and either the district is a number, or the district matches and the capacity key is missing, or the capacity is usable and the count key is missing or the count is a truthy string that `int` rejects |
| Admission.AdmitSites | source/images/simulator/app/main.py:157-198 | the run aborts iff some record aborts, with the error of the first such record; otherwise the admitted sites are exactly those whose record is admitted, each once and in registry order |
| Admission.Truncate | source/images/simulator/app/main.py:187 | `int` of a number truncates toward zero |
| Admission.Screen | source/images/simulator/app/main.py:205-249 | a filter loop over records aborts iff some record raises, with the error of the first that does; otherwise it keeps exactly the admitted items, never more than there are records |
| Admission.ScreenInOrder | source/images/simulator/app/main.py:205-249 | the items a filter loop keeps are the admitted ones, each once and in record order: they stand at strictly increasing positions of the records, and every admitted position is among them |
| Admission.AdmitHouses | source/images/simulator/app/main.py:205-249 | the run aborts iff some house record aborts, with the error of the first such record; otherwise the admitted houses are exactly those whose record is admitted, each once and in registry order, and each refers to an admitted site |
| Admission.AdmitHouse | source/images/simulator/app/main.py:205-249 | a house aborts iff it has no full address, or a floor area that is present but not a string, or the area its emission is computed from (the living area when truthy, else the total area) is a non-empty string `float` rejects, or an address both geocoded and with a nearest site whose record lacks `uid` or whose site was admitted while `lat` or `lng` is missing; otherwise it is admitted iff its address was geocoded and its nearest site was admitted, and carries that address, those coordinates, that site and its emission |
| Admission.ReadText | source/images/simulator/app/main.py:208-224 | an area text becomes a number iff `float` accepts it once "м2" is removed and the rest trimmed; otherwise an empty text becomes nothing and a non-empty one is kept as it was |
| Admission.ReadArea | source/images/simulator/app/main.py:208-224 | reading an area fails (AttributeError) iff it is present but not a string; an absent area reads as the text "0" |
| Admission.Emission | source/images/simulator/app/main.py:226-230 | the daily emission is round(living/3.65) when the living area is truthy, else round(0.6*total/3.65) when the total area is truthy, else 0; it raises (TypeError) iff the area chosen is a kept string |
| Admission.SiteOfUid | source/images/simulator/app/main.py:191-198 | a uid in the admitted list belongs to an admitted site, and that site's uid is a registry key |
| Admission.HousesReferToAdmittedSites | source/images/simulator/app/main.py:238-240 | every house handed to the simulation collects into a site that is handed to it too and comes from the registry |
| Geocoder.MatchFrom | source/images/geocoder/app/main.py:43-102 | the first rule, in the listed order, whose prefix starts the part; none iff no rule's does |
| Geocoder.Classify | source/images/geocoder/app/main.py:41-105 | six digits are a postal code kept verbatim; otherwise the first matching rule gives the category and type, and the value is the part with every occurrence of the prefix removed; none iff nothing matches |
| Geocoder.Fold | source/images/geocoder/app/main.py:38-106 | folding fails iff some part is unclassified, and reports the first such part |
| Geocoder.NormalizePieces | source/images/geocoder/app/main.py:39-105 | normalization fails iff some trimmed part is unknown, and reports the first such part as it reads once trimmed |
| Geocoder.FoldKeys | source/images/geocoder/app/main.py:38-102 | the result's categories are exactly those of the parts |
| Geocoder.FoldLastWins | source/images/geocoder/app/main.py:93-102 | a part whose category no later part has gives that category its value: the last part of a category wins |
| Geocoder.FoldKeeps | source/images/geocoder/app/main.py:38-102 | a category no part has keeps its value |
| Geocoder.PrefixedMatch | source/images/geocoder/app/main.py:43-102 | a value written with a rule's prefix is matched by that rule first |
| Geocoder.PrefixesIndependent | source/images/geocoder/app/main.py:43-102 | no rule prefix starts another, so the listed order never hides a rule |
| Geocoder.ClassifyShown | source/images/geocoder/app/main.py:40-102 | a well-formed component, written out and trimmed, classifies as its own entry |
| Geocoder.NormalizeRender | source/images/geocoder/app/main.py:35-106 | round trip: well-formed components joined with ", " normalize to exactly the table they describe |
| Geocoder.TrailingCommaFails | source/images/geocoder/app/main.py:103-105 | an address ending in a comma fails to normalize |
| Geocoder.WithPrefix | source/images/geocoder/app/main.py:21-22 | the prefix and ", " are put in front iff the prefix does not already occur; the result always contains the prefix |
| Geocoder.WithPrefixIdempotent | source/images/geocoder/app/main.py:21-22 | qualifying an address twice is qualifying it once |
| Text.JoinSplit | source/images/geocoder/app/main.py:39 | joining the pieces of a split with its separator gives back the string |
| Text.SplitJoin | source/images/geocoder/app/main.py:39 | splitting a join gives back the pieces when none contains the separator's first character |
| Text.StripTrimmed | source/images/geocoder/app/main.py:40 | a part already trimmed is its own strip |
| Geoprocessing.SheetArea | source/images/geoprocessing/app/main.py:16-21 | the district of each of the eight sheets is the last word of its name |
| Geoprocessing.KeyInjective | source/images/geoprocessing/app/main.py:38 | a key "district_number" determines its district and number |
| Geoprocessing.LoadSheet | source/images/geoprocessing/app/main.py:22-38 | the keys after a sheet are the earlier ones plus district_number for each row; every entry is either kept from before or belongs to this district |
| Geoprocessing.KeyNumber | source/images/geoprocessing/app/main.py:38 | within one district, two rows share a key only when they share a number |
| Geoprocessing.LoadSheetRow | source/images/geoprocessing/app/main.py:22-38 | the last row with a given number gives its key the site of that row: this district, the row's coordinates, not yet snapped |
| Geoprocessing.LoadSheetOrder | source/images/geoprocessing/app/main.py:14-38 | the keys read before a sheet keep their places; the keys it adds are new, come after them, and are in the order of the rows that first bring them |
| Geoprocessing.LoadFrom | source/images/geoprocessing/app/main.py:16-38 | reading from a sheet on aborts iff one of the remaining sheets is missing; otherwise the keys are the earlier ones plus district_number for every row of every remaining sheet |
| Geoprocessing.LoadFromAll | source/images/geoprocessing/app/main.py:16-38 | reading the sheets one after the other is storing all their rows in turn into one dict |
| Geoprocessing.LoadFromContents | source/images/geoprocessing/app/main.py:11-39 | with every sheet present the read succeeds; each key holds the site of its last row over all the sheets, the earlier keys keep their places, and the new keys follow in the order of their first rows, sheet after sheet; `LoadDumpsters` is this read from the first sheet with an empty dict |
| Geoprocessing.LoadDumpsters | source/images/geoprocessing/app/main.py:11-39 | a missing sheet aborts; otherwise the keys are exactly district_number for every row of every sheet (values and key order: `LoadFromContents`) |
| Geoprocessing.SwapPair | source/images/geoprocessing/app/main.py:50 | "latitude, longitude" is rewritten as "longitude,latitude" |
| Geoprocessing.Snap | source/images/geoprocessing/app/main.py:46-60 | a site with missing or empty coordinates, or whose reply is not "Ok", is left unchanged; otherwise its placement becomes the reply's waypoints |
| Geoprocessing.LinkToRoad | source/images/geoprocessing/app/main.py:42-61 | every site is snapped in place; keys and their order are kept |
| Geoprocessing.Locate | source/images/geoprocessing/app/main.py:94-106 | a site never snapped is skipped; missing waypoints, an empty list and a location that is not a pair are the uncaught errors; otherwise the pair is read as longitude, latitude |
| Geoprocessing.LocateAll | source/images/geoprocessing/app/main.py:92-106 | the sites with their positions in table order, failing iff some site's position raises |
| Geoprocessing.Window | source/images/geoprocessing/app/main.py:92-108 | a site is a candidate at threshold t iff it has a position within ±t of the house in both coordinates, bounds included |
| Geoprocessing.WindowInOrder | source/images/geoprocessing/app/main.py:92-106 | the window is the table filtered in table order: its sites stand at strictly increasing positions of the table, each the entry at its position, and every located entry inside the box is among them |
| Geoprocessing.Candidates | source/images/geoprocessing/app/main.py:87-110 | the candidates are the windows of the first n thresholds one after the other, for the first n at which there are at least three, or all eight |
| Geoprocessing.WindowGrows | source/images/geoprocessing/app/main.py:96-103 | a larger box holds every site of a smaller one |
| Geoprocessing.FirstBoxRepeats | source/images/geoprocessing/app/main.py:87-110 | since the list is never reset, a site of the first box is listed once for every box tried |
| Geoprocessing.FirstMin | source/images/geoprocessing/app/main.py:131-133 | the index of the first strictly smallest duration; none iff there is no duration |
| Geoprocessing.FirstMinUnique | source/images/geoprocessing/app/main.py:131-133 | the first strict minimum is the only index at most every duration and strictly below all earlier ones |
| Geoprocessing.Choose | source/images/geoprocessing/app/main.py:126-141 | nothing is linked iff the request failed or the first row of durations is empty; missing durations, no row, or a minimum past the candidates are errors; otherwise the link is the candidate at the first strict minimum of the first row, with that duration |
| Geoprocessing.LinkShared | source/images/geoprocessing/app/main.py:83-141 | the run as written fails iff some house's search fails, and every linked house's site carries a duration |
| Geoprocessing.LastDurationWins | source/images/geoprocessing/app/main.py:138-141 | as written, of two houses linked to one site the first reports the second's duration |
| Geoprocessing.SharedDurationOverwritten | source/images/geoprocessing/app/main.py:138-141 | as written, house "a" linked to site "s" at 60 s reports 90 s, the duration of house "b" |
| Geoprocessing.LinkOwn | source/images/geoprocessing/app/main.py:137-141 | a house appears only when its search found a minimum; the run fails iff some house's search fails |
| Geoprocessing.OwnLinkReported | source/images/geoprocessing/app/main.py:137-141 | each linked house keeps its own site and duration |
| Geoprocessing.LinkToNearest | source/images/geoprocessing/app/main.py:80-146 | no houses, no result; with houses a site error aborts; otherwise the run fails iff some house's search fails, and only houses whose search found a minimum appear |

## Left out

- The simpy scheduler is not part of this model: its timer queue, its ordering of
  simultaneous events and cancellation. Each resumption is an atomic transition. The
  caller advances `now` by the returned delay.
- The `resources` module (`Dumpster`, `Order`), `Clock` and `House` are not part of this
  model. Only the fields and effects the agents use are modelled.
  - A site's `percent_level` is taken to be `value / capacity`.
  - Loads are integral, so `round(value)` and `round(float(value), 3)` in the vehicle's
    state are the value itself.
- HTTP calls to the routing and geocoding services are parameters. These are the
  vehicle's `Router`, and the `nearest` and `table` services. Their replies are
  functions of the request.
- Shapely's path interpolation is a parameter (`Interpolator`). So is the rounding of
  the interpolated coordinates to six digits.
- Floating point is modelled by exact reals. `isclose` keeps its relative tolerance of
  1e-9 beside the absolute 1e-4.
- uuid generation is a parameter: a fresh uid is handed to the dispatcher's step.
- Admission.Emission: the daily emission is computed in exact reals, so the rounding of
  the float products `x * 0.1 * 1000 / 365.0` is not modelled. The float parser is a
  parameter that yields finite reals only: `float` also reads "nan" and "inf", whose
  `round` raises, and that error is not modelled.
- Reading JSON, openpyxl workbooks and CSV files, and printing, are not modelled. So
  are the `gis` storage helpers and the development tasks.
- Admission.AdmitSite: reading a record's location is abstracted to a pair or nothing.
  A location path that raises while it is followed counts as nothing.
- Vehicles.Move: every routing reply has a `code` key
  (source/images/simulator/app/agents/vehicle.py:148, 177, 208). The KeyError of a
  reply without one is not modelled.
- Geoprocessing.Snap: every `nearest` reply has a `code` key
  (source/images/geoprocessing/app/main.py:55). The KeyError of a reply without one
  is not modelled.
- Geoprocessing.Choose: every `table` reply has a `code` key
  (source/images/geoprocessing/app/main.py:128). The KeyError of a reply without one
  is not modelled.
- Vehicles.Resume: requires `Ready`. The KeyError branch of `load_dumpster` is
  unreachable as written, because the loop only visits the order's own sites. So it
  is not modelled.
- Admission.AdmitHouses: a house record, a site's `uid` and the geocoded `lat`/`lng`
  are taken to be JSON objects where the code indexes them. Indexing a value of
  another type raises TypeError; that is not modelled.
- Geocoder.Normalize: stated through `NormalizePieces` and the round-trip lemma, not by
  a contract of its own. `\d` is read as an ASCII digit only.
- Geoprocessing.Locate: every waypoint has a `location`. The skipped KeyError for a
  waypoint without one is not modelled.
- Geoprocessing.FirstMin: durations are numbers. A `null` duration, which Python
  cannot compare, is not modelled.
- Geoprocessing.LoadDumpsters: reads every sheet under its `Districts` entry.
  `SheetArea` proves that this entry is the last word of the sheet's name, which the
  source computes.
- Geoprocessing.LinkToNearest: each house keeps its own duration (see Findings).
  `LinkShared` is the version as written.

Behaviour of the code that the model keeps as written:

- The order size of 16 and the threshold of 0.7 are constants, not configuration.
- A vehicle loads at most one site per leg: the first one within tolerance.
- A failed disposal route skips the unload, so the load stays on board.
- Admission only tests capacity and count for truthiness. Rounding can make a capacity
  0 or negative, and a negative count is admitted. So admitted sites are not fed into
  `AddDumpster`, whose capacity must be positive.

## Findings

| source | as written | input that shows it | evidently intended | confidence | as-written member | corrected member |
|---|---|---|---|---|---|---|
| source/images/geoprocessing/app/main.py:138-141 | the chosen site's record is shared between houses, and each house writes its `duration` into it | two houses whose nearest site is the same "s", at 60 s and 90 s: the first house reports 90 s | each house reports the walking duration computed for it | medium, not executed | Geoprocessing.SharedDurationOverwritten | Geoprocessing.OwnLinkReported |

=== FILE: admission.dfy ===
/** The filters that decide which records of the container-site registry and of the
    house registry enter the simulation. Records are JSON objects; only the values the
    filters look at are modelled, and the parsing of numbers out of strings is a
    parameter. */
module Admission {

  import opened Wrappers
  import opened Numerics
  import opened Text
  import opened Tables

  /** A JSON scalar. */
  datatype Value = Null | Number(x: real) | Str(s: string)

  /** A key of a JSON object: absent, or present with a value. */
  datatype Field = Missing | Given(value: Value)

  /** Python's truth value of a scalar: `None`, zero and the empty string are false. */
  predicate Truthy(v: Value) {
    match v
    case Null => false
    case Number(x) => x != 0.0
    case Str(s) => |s| > 0
  }

  /** `float(s)` and `int(s)` on strings; `None` is the ValueError. */
  type FloatParser = string -> Option<real>
  type IntParser = string -> Option<int>

  /** `int(x)` on a float: truncation toward zero. */
  function Truncate(x: real): (r: int)
    ensures Abs(r as real) <= Abs(x) < Abs(r as real) + 1.0
    ensures x >= 0.0 ==> r >= 0
    ensures x <= 0.0 ==> r <= 0
  {
    if x >= 0.0 then x.Floor else -((-x).Floor)
  }

  // ---------------------------------------------------------------------------
  // Container sites

  /** The part of a registry entry the filter reads: the `location` pair of the first
      `Расположение` item (`None` when that path cannot be followed), `Округ`,
      `Вместимомть` and `Количество`. */
  datatype SiteRecord = SiteRecord(
    location: Option<seq<Value>>,
    area: Field,
    capacity: Field,
    count: Field)

  /** The site as handed to the simulation: capacity in litres, and the number of
      containers. */
  datatype SiteInput = SiteInput(
    uid: string,
    latitude: Value,
    longitude: Value,
    capacity: int,
    count: int)

  datatype Verdict<+T> = Admitted(item: T) | Skipped | Crashed(error: string)

  /** A filter loop over verdicts in order: the first record that raises stops the run
      with its error; otherwise the admitted items, in order (`ScreenInOrder`). */
  function Screen<T(==, !new)>(vs: seq<Verdict<T>>): (r: Result<seq<T>, string>)
    ensures r.Failure? <==> exists i :: 0 <= i < |vs| && vs[i].Crashed?
    ensures r.Failure? ==>
      exists i :: 0 <= i < |vs| && vs[i] == Crashed(r.error) && forall j :: 0 <= j < i ==> !vs[j].Crashed?
    ensures r.Success? ==> |r.value| <= |vs|
    ensures r.Success? ==> forall x :: x in r.value <==> exists i :: 0 <= i < |vs| && vs[i] == Admitted(x)
    decreases |vs|
  {
    if |vs| == 0 then Success([])
    else
      var tail := Screen(vs[1..]);
      assert forall i :: 1 <= i < |vs| ==> vs[1..][i - 1] == vs[i];
      match vs[0]
      case Crashed(e) => Failure(e)
      case Skipped => tail
      case Admitted(x) =>
        match tail
        case Failure(e) => Failure(e)
        case Success(rest) => Success([x] + rest)
  }

  /** The items a filter loop keeps are the admitted verdicts, each once and in order. */
  lemma {:induction false} ScreenInOrder<T(!new)>(vs: seq<Verdict<T>>)
    ensures Screen(vs).Success? ==> exists idx :: Kept(vs, Screen(vs).value, idx)
    decreases |vs|
  {
    if |vs| == 0 {
      assert Kept(vs, [], []);
    } else if Screen(vs).Success? {
      ScreenInOrder(vs[1..]);
      var rest := Screen(vs[1..]).value;
      var idx' :| Kept(vs[1..], rest, idx');
      KeptStep(vs, rest, Screen(vs).value, idx');
    }
  }

  /** The items `r` are the admitted verdicts of `vs`, each once and in order: they
      stand at increasing positions `idx` of `vs`, and every admitted position is
      among them. */
  predicate Kept<T(==)>(vs: seq<Verdict<T>>, r: seq<T>, idx: seq<nat>) {
    && Increasing(idx) && |idx| == |r|
    && (forall k :: 0 <= k < |idx| ==> idx[k] < |vs| && vs[idx[k]] == Admitted(r[k]))
    && (forall i :: 0 <= i < |vs| && vs[i].Admitted? ==> i in idx)
  }

  /** Positions in the rest of `vs`, one further on, with the first verdict's item in
      front when it is admitted. */
  lemma KeptCons<T>(vs: seq<Verdict<T>>, rest: seq<T>, idx': seq<nat>)
    requires |vs| > 0 && Kept(vs[1..], rest, idx')
    ensures !vs[0].Admitted? ==> Kept(vs, rest, Shift(idx'))
    ensures vs[0].Admitted? ==> Kept(vs, [vs[0].item] + rest, [0] + Shift(idx'))
  {
    ShiftIncreasing(idx');
    ShiftKeptItems(vs, rest, idx');
    ShiftKeptCovers(vs, rest, idx');
    if vs[0].Admitted? {
      ConsKept(vs, rest, Shift(idx'));
    }
  }

  /** The admitted first verdict goes in front, at position 0. */
  lemma ConsKept<T>(vs: seq<Verdict<T>>, rest: seq<T>, shifted: seq<nat>)
    requires |vs| > 0 && vs[0].Admitted?
    requires Increasing([0] + shifted) && |shifted| == |rest|
    requires forall k :: 0 <= k < |rest| ==> shifted[k] < |vs| && vs[shifted[k]] == Admitted(rest[k])
    requires forall i :: 0 < i < |vs| && vs[i].Admitted? ==> i in shifted
    ensures Kept(vs, [vs[0].item] + rest, [0] + shifted)
  {
    var r := [vs[0].item] + rest;
    var idx := [0] + shifted;
    forall k | 0 <= k < |r|
      ensures idx[k] < |vs| && vs[idx[k]] == Admitted(r[k])
    {
      if k > 0 {
        assert idx[k] == shifted[k - 1] && r[k] == rest[k - 1];
      }
    }
    forall i | 0 <= i < |vs| && vs[i].Admitted?
      ensures i in idx
    {
      if i == 0 {
        assert idx[0] == 0;
      } else {
        assert i in shifted;
      }
    }
  }

  /** One step of the loop: the verdict in front adds its item when it is admitted. */
  lemma KeptStep<T>(vs: seq<Verdict<T>>, rest: seq<T>, r: seq<T>, idx': seq<nat>)
    requires |vs| > 0 && Kept(vs[1..], rest, idx')
    requires r == if vs[0].Admitted? then [vs[0].item] + rest else rest
    ensures exists idx :: Kept(vs, r, idx)
  {
    KeptCons(vs, rest, idx');
    if vs[0].Admitted? {
      assert Kept(vs, r, [0] + Shift(idx'));
    } else {
      assert Kept(vs, r, Shift(idx'));
    }
  }

  /** The kept items still stand at their positions, one further on. */
  lemma ShiftKeptItems<T>(vs: seq<Verdict<T>>, rest: seq<T>, idx': seq<nat>)
    requires |vs| > 0 && Kept(vs[1..], rest, idx')
    ensures forall k :: 0 <= k < |rest| ==> Shift(idx')[k] < |vs| && vs[Shift(idx')[k]] == Admitted(rest[k])
  {
    var shifted := Shift(idx');
    forall k | 0 <= k < |rest|
      ensures shifted[k] < |vs| && vs[shifted[k]] == Admitted(rest[k])
    {
      assert vs[1..][idx'[k]] == vs[shifted[k]];
    }
  }

  /** Every admitted position after the first is among the positions one further on. */
  lemma ShiftKeptCovers<T>(vs: seq<Verdict<T>>, rest: seq<T>, idx': seq<nat>)
    requires |vs| > 0 && Kept(vs[1..], rest, idx')
    ensures forall i :: 0 < i < |vs| && vs[i].Admitted? ==> i in Shift(idx')
  {
    var shifted := Shift(idx');
    forall i | 0 < i < |vs| && vs[i].Admitted?
      ensures i in shifted
    {
      assert vs[1..][i - 1] == vs[i];
      var k :| 0 <= k < |idx'| && idx'[k] == i - 1;
      assert shifted[k] == i;
    }
  }

  const District: string := "Нижегородский"

  /** The district text: an absent or null `Округ` reads as "", a number cannot be
      searched and raises. */
  function AreaText(f: Field): Option<string> {
    match f
    case Missing => Some("")
    case Given(Null) => Some("")
    case Given(Str(s)) => Some(s)
    case Given(Number(_)) => None
  }

  /** The capacity in cubic metres, when it is truthy and reads as a number. */
  function CapacityValue(v: Value, parseFloat: FloatParser): Option<real> {
    if !Truthy(v) then None
    else
      match v
      case Number(x) => Some(x)
      case Str(s) => parseFloat(s)
      case Null => None
  }

  /** The number of containers of a truthy count: a number is truncated, a string is
      parsed; `None` is the ValueError of a string `int` rejects. */
  function CountValue(v: Value, parseInt: IntParser): Option<int>
    requires Truthy(v)
  {
    match v
    case Number(x) => Some(Truncate(x))
    case Str(s) => parseInt(s)
  }

  /** The filter, applied in the source's order: a site without a usable location is
      skipped, so is one outside the Nizhegorodsky district, one whose capacity is
      empty or not a number, and one whose count is falsy; a missing capacity or count
      key, and a truthy string count that `int` rejects, abort the whole run; a numeric
      count is truncated. */
  function AdmitSite(uid: string, rec: SiteRecord, parseFloat: FloatParser, parseInt: IntParser): (r: Verdict<SiteInput>)
    ensures r.Admitted? <==>
      && rec.location.Some? && |rec.location.value| == 2
      && AreaText(rec.area).Some? && Contains(AreaText(rec.area).value, District)
      && rec.capacity.Given? && CapacityValue(rec.capacity.value, parseFloat).Some?
      && rec.count.Given? && Truthy(rec.count.value) && CountValue(rec.count.value, parseInt).Some?
    ensures r.Admitted? ==>
      && r.item.uid == uid
      && r.item.longitude == rec.location.value[0] && r.item.latitude == rec.location.value[1]
      && r.item.capacity == RoundHalfEven(CapacityValue(rec.capacity.value, parseFloat).value * 1000.0)
      && r.item.count == CountValue(rec.count.value, parseInt).value
    ensures rec.location.None? ==> r.Skipped?
    ensures r.Crashed? ==> rec.location.Some? && |rec.location.value| == 2
    ensures r.Crashed? <==>
      && rec.location.Some? && |rec.location.value| == 2
      && (|| AreaText(rec.area).None?
          || (&& Contains(AreaText(rec.area).value, District)
              && (|| rec.capacity.Missing?
                  || (&& CapacityValue(rec.capacity.value, parseFloat).Some?
                      && (|| rec.count.Missing?
                          || (Truthy(rec.count.value) && CountValue(rec.count.value, parseInt).None?))))))
  {
    match rec.location
    case None => Skipped
    case Some(pair) =>
      if |pair| != 2 then Skipped
      else
        match AreaText(rec.area)
        case None => Crashed("TypeError: the district is a number")
        case Some(area) =>
          if !Contains(area, District) then Skipped
          else
            match rec.capacity
            case Missing => Crashed("KeyError: Вместимомть")
            case Given(c) =>
              match CapacityValue(c, parseFloat)
              case None => Skipped
              case Some(volume) =>
                match rec.count
                case Missing => Crashed("KeyError: Количество")
                case Given(n) =>
                  if !Truthy(n) then Skipped
                  else
                    match CountValue(n, parseInt)
                    case None => Crashed("ValueError: the count is not an integer")
                    case Some(count) =>
                      Admitted(SiteInput(uid, pair[1], pair[0], RoundHalfEven(volume * 1000.0), count))
  }

  /** The registry, in file order. */
  type Registry = seq<(string, SiteRecord)>

  /** The admitted sites, in registry order, or the first error that aborts the run. */
  function AdmitSites(entries: Registry, parseFloat: FloatParser, parseInt: IntParser): (r: Result<seq<SiteInput>, string>)
    ensures r.Failure? <==> exists i :: 0 <= i < |entries| && AdmitSite(entries[i].0, entries[i].1, parseFloat, parseInt).Crashed?
    ensures r.Failure? ==>
      exists i :: 0 <= i < |entries| && AdmitSite(entries[i].0, entries[i].1, parseFloat, parseInt) == Crashed(r.error)
        && forall j :: 0 <= j < i ==> !AdmitSite(entries[j].0, entries[j].1, parseFloat, parseInt).Crashed?
    ensures r.Success? ==> |r.value| <= |entries|
    ensures r.Success? ==> forall s :: s in r.value <==>
      exists i :: 0 <= i < |entries| && AdmitSite(entries[i].0, entries[i].1, parseFloat, parseInt) == Admitted(s)
    ensures r.Success? ==> exists idx :: Kept(SiteVerdicts(entries, parseFloat, parseInt), r.value, idx)
  {
    ScreenInOrder(SiteVerdicts(entries, parseFloat, parseInt));
    Screen(SiteVerdicts(entries, parseFloat, parseInt))
  }

  /** The verdict on each registry entry, in order. */
  function SiteVerdicts(entries: Registry, parseFloat: FloatParser, parseInt: IntParser): (r: seq<Verdict<SiteInput>>)
    ensures |r| == |entries|
    ensures forall i :: 0 <= i < |entries| ==> r[i] == AdmitSite(entries[i].0, entries[i].1, parseFloat, parseInt)
  {
    seq(|entries|, i requires 0 <= i < |entries| => AdmitSite(entries[i].0, entries[i].1, parseFloat, parseInt))
  }

  /** The uids of the admitted sites, in order. */
  function Uids(sites: seq<SiteInput>): (r: seq<string>)
    ensures |r| == |sites|
    ensures forall k :: 0 <= k < |sites| ==> r[k] == sites[k].uid
  {
    seq(|sites|, k requires 0 <= k < |sites| => sites[k].uid)
  }

  // ---------------------------------------------------------------------------
  // Houses

  /** The part of a house record the filter reads: `address.fullname` (`None` when the
      record has none), the total floor area and the living floor area. */
  datatype HouseRecord = HouseRecord(address: Option<string>, totalArea: Field, livingArea: Field)

  datatype HouseInput = HouseInput(
    uid: string,
    latitude: Value,
    longitude: Value,
    dumpsterUid: string,
    dailyEmission: int)

  /** The geocoded `lat` and `lng` keys of each address, and the `uid` key of its nearest
      site (`None` when that record has no `uid`). An address that is absent or null
      in either file is absent from the map. */
  type Coordinates = map<string, (Field, Field)>
  type Nearest = map<string, Option<string>>

  /** A floor area present in the record must be a string: `.replace` on a null or a
      number raises AttributeError, which the ValueError handler does not catch. An
      absent area reads as "0". */
  predicate AreaBreaks(f: Field) {
    f.Given? && !f.value.Str?
  }

  /** A floor area once read: the number `float` makes of it once "м2" is removed and
      the rest trimmed; `Blank` for an empty string `float` rejects, which the handler
      turns into `None`; or a non-empty string `float` rejects, which the handler only
      reports and keeps as it was. */
  datatype Area = Measured(x: real) | Blank | Unreadable(s: string)

  /** Python's truth value of a read area: a kept string is true. */
  predicate AreaTruthy(a: Area) {
    match a
    case Measured(x) => x != 0.0
    case Blank => false
    case Unreadable(_) => true
  }

  function ReadText(s: string, parseFloat: FloatParser): (r: Area)
    ensures r.Measured? <==> parseFloat(Strip(ReplaceAll(s, "м2", ""))).Some?
    ensures r.Unreadable? ==> r.s == s && |s| > 0
    ensures !r.Measured? ==> (r.Blank? <==> |s| == 0)
  {
    match parseFloat(Strip(ReplaceAll(s, "м2", "")))
    case Some(x) => Measured(x)
    case None => if |s| == 0 then Blank else Unreadable(s)
  }

  /** Reads one area; `None` is the AttributeError of a value that is not a string. */
  function ReadArea(f: Field, parseFloat: FloatParser): (r: Option<Area>)
    ensures r.None? <==> AreaBreaks(f)
    ensures f.Missing? ==> r == Some(ReadText("0", parseFloat))
    ensures f.Given? && f.value.Str? ==> r == Some(ReadText(f.value.s, parseFloat))
  {
    match f
    case Missing => Some(ReadText("0", parseFloat))
    case Given(Str(s)) => Some(ReadText(s, parseFloat))
    case Given(_) => None
  }

  /** The daily emission in litres: from the living area when it is truthy, otherwise
      from 60% of the total area when that is truthy, otherwise 0. `None` is the
      TypeError of multiplying a kept string by a float. */
  function Emission(living: Area, total: Area): (r: Option<int>)
    ensures r.None? <==> if AreaTruthy(living) then living.Unreadable? else AreaTruthy(total) && total.Unreadable?
    ensures r.Some? && AreaTruthy(living) ==> r.value == RoundHalfEven(living.x / 3.65)
    ensures r.Some? && !AreaTruthy(living) && AreaTruthy(total) ==> r.value == RoundHalfEven(total.x * 0.6 / 3.65)
    ensures !AreaTruthy(living) && !AreaTruthy(total) ==> r == Some(0)
  {
    if AreaTruthy(living) then
      match living
      case Measured(x) => Some(RoundHalfEven(x * 0.1 * 1000.0 / 365.0))
      case _ => None
    else if AreaTruthy(total) then
      match total
      case Measured(x) => Some(RoundHalfEven(x * 0.6 * 0.1 * 1000.0 / 365.0))
      case _ => None
    else Some(0)
  }

  /** The area the emission is computed from is a non-empty string `float` rejected. */
  predicate AreaUnparsed(h: HouseRecord, parseFloat: FloatParser)
    requires !AreaBreaks(h.totalArea) && !AreaBreaks(h.livingArea)
  {
    Emission(ReadArea(h.livingArea, parseFloat).value, ReadArea(h.totalArea, parseFloat).value).None?
  }

  /** The address was geocoded and has a nearest site. */
  predicate Found(h: HouseRecord, coords: Coordinates, nearest: Nearest) {
    h.address.Some? && h.address.value in coords && h.address.value in nearest
  }

  /** A house enters when its address was geocoded, has a nearest site, and that site
      was itself admitted. */
  predicate Linked(h: HouseRecord, coords: Coordinates, nearest: Nearest, admitted: seq<string>) {
    && Found(h, coords, nearest)
    && nearest[h.address.value].Some? && nearest[h.address.value].value in admitted
  }

  /** The filter of one house record. */
  function AdmitHouse(h: HouseRecord, coords: Coordinates, nearest: Nearest, admitted: seq<string>,
                      parseFloat: FloatParser): (r: Verdict<HouseInput>)
    ensures r.Crashed? <==>
      || h.address.None?
      || AreaBreaks(h.totalArea) || AreaBreaks(h.livingArea)
      || AreaUnparsed(h, parseFloat)
      || (&& Found(h, coords, nearest)
          && (|| nearest[h.address.value].None?
              || (&& nearest[h.address.value].value in admitted
                  && (coords[h.address.value].0.Missing? || coords[h.address.value].1.Missing?))))
    ensures r.Admitted? <==> !r.Crashed? && Linked(h, coords, nearest, admitted)
    ensures r.Admitted? ==>
      && r.item.uid == h.address.value
      && Given(r.item.latitude) == coords[h.address.value].0
      && Given(r.item.longitude) == coords[h.address.value].1
      && Some(r.item.dumpsterUid) == nearest[h.address.value]
      && Some(r.item.dailyEmission)
         == Emission(ReadArea(h.livingArea, parseFloat).value, ReadArea(h.totalArea, parseFloat).value)
  {
    match h.address
    case None => Crashed("KeyError: fullname")
    case Some(address) =>
      match (ReadArea(h.totalArea, parseFloat), ReadArea(h.livingArea, parseFloat))
      case (None, _) => Crashed("AttributeError: replace")
      case (_, None) => Crashed("AttributeError: replace")
      case (Some(total), Some(living)) =>
        match Emission(living, total)
        case None => Crashed("TypeError: a floor area is not a number")
        case Some(emission) =>
          if address !in coords || address !in nearest then Skipped
          else
            match nearest[address]
            case None => Crashed("KeyError: uid")
            case Some(uid) =>
              if uid !in admitted then Skipped
              else
                match coords[address]
                case (Given(latitude), Given(longitude)) =>
                  Admitted(HouseInput(address, latitude, longitude, uid, emission))
                case _ => Crashed("KeyError: lat/lng")
  }

  /** The admitted houses, in registry order; the first record the filter cannot read
      aborts the run. */
  function AdmitHouses(houses: seq<HouseRecord>, coords: Coordinates, nearest: Nearest, admitted: seq<string>,
                       parseFloat: FloatParser): (r: Result<seq<HouseInput>, string>)
    ensures r.Failure? <==> exists i :: 0 <= i < |houses| && AdmitHouse(houses[i], coords, nearest, admitted, parseFloat).Crashed?
    ensures r.Failure? ==>
      exists i :: 0 <= i < |houses| && AdmitHouse(houses[i], coords, nearest, admitted, parseFloat) == Crashed(r.error)
        && forall j :: 0 <= j < i ==> !AdmitHouse(houses[j], coords, nearest, admitted, parseFloat).Crashed?
    ensures r.Success? ==> |r.value| <= |houses|
    ensures r.Success? ==> forall x :: x in r.value ==> x.dumpsterUid in admitted
    ensures r.Success? ==> forall x :: x in r.value <==>
      exists i :: 0 <= i < |houses| && AdmitHouse(houses[i], coords, nearest, admitted, parseFloat) == Admitted(x)
    ensures r.Success? ==> exists idx :: Kept(HouseVerdicts(houses, coords, nearest, admitted, parseFloat), r.value, idx)
  {
    ScreenInOrder(HouseVerdicts(houses, coords, nearest, admitted, parseFloat));
    Screen(HouseVerdicts(houses, coords, nearest, admitted, parseFloat))
  }

  /** The verdict on each house record, in order. */
  function HouseVerdicts(houses: seq<HouseRecord>, coords: Coordinates, nearest: Nearest, admitted: seq<string>,
                         parseFloat: FloatParser): (r: seq<Verdict<HouseInput>>)
    ensures |r| == |houses|
    ensures forall i :: 0 <= i < |houses| ==> r[i] == AdmitHouse(houses[i], coords, nearest, admitted, parseFloat)
  {
    seq(|houses|, i requires 0 <= i < |houses| => AdmitHouse(houses[i], coords, nearest, admitted, parseFloat))
  }

  /** Every house handed to the simulation collects into a site handed to it too. */
  lemma HousesReferToAdmittedSites(entries: Registry, parseFloat: FloatParser, parseInt: IntParser,
                                   houses: seq<HouseRecord>, coords: Coordinates, nearest: Nearest)
    requires AdmitSites(entries, parseFloat, parseInt).Success?
    requires AdmitHouses(houses, coords, nearest, Uids(AdmitSites(entries, parseFloat, parseInt).value), parseFloat).Success?
    ensures var sites := AdmitSites(entries, parseFloat, parseInt).value;
      forall h :: h in AdmitHouses(houses, coords, nearest, Uids(sites), parseFloat).value ==>
        exists s :: s in sites && s.uid == h.dumpsterUid
                 && exists i :: 0 <= i < |entries| && entries[i].0 == s.uid
  {
    var sites := AdmitSites(entries, parseFloat, parseInt).value;
    forall h | h in AdmitHouses(houses, coords, nearest, Uids(sites), parseFloat).value
      ensures exists s :: s in sites && s.uid == h.dumpsterUid
                       && exists i :: 0 <= i < |entries| && entries[i].0 == s.uid
    {
      SiteOfUid(entries, parseFloat, parseInt, h.dumpsterUid);
    }
  }

  /** An admitted uid belongs to an admitted site that comes from the registry. */
  lemma SiteOfUid(entries: Registry, parseFloat: FloatParser, parseInt: IntParser, uid: string)
    requires AdmitSites(entries, parseFloat, parseInt).Success?
    requires uid in Uids(AdmitSites(entries, parseFloat, parseInt).value)
    ensures var sites := AdmitSites(entries, parseFloat, parseInt).value;
      exists s :: s in sites && s.uid == uid
               && exists i :: 0 <= i < |entries| && entries[i].0 == s.uid
  {
    var sites := AdmitSites(entries, parseFloat, parseInt).value;
    var k :| 0 <= k < |sites| && Uids(sites)[k] == uid;
    var s := sites[k];
    assert s in sites && s.uid == uid;
    var i :| 0 <= i < |entries| && AdmitSite(entries[i].0, entries[i].1, parseFloat, parseInt) == Admitted(s);
    assert entries[i].0 == s.uid;
  }
}

=== FILE: dispatching.dfy ===
/** The dispatcher: every `timeout` seconds it gathers the sites that are more than 70%
    full and not yet in an order, and turns them into one order once there are at
    least 16 of them; idle vehicles ask it for the first order nobody has taken. */
module Dispatching {

  import opened Wrappers
  import opened Tables
  import opened Resources

  /** Fill fraction above which a site is worth collecting. */
  const Threshold: real := 0.7
  /** Smallest number of sites that makes an order. */
  const MinOrderSize: nat := 16
  /** Disposal target of every order (the MAG-1 landfill). */
  const Target: Point := Point(56.322486, 43.560934)

  type Dumpsters = Table<DumpsterId, Dumpster>
  type Orders = Table<OrderId, Order>

  /** Where the dispatcher's process is suspended: before its first wait, or in the
      wait that precedes every scan. */
  datatype Phase = Starting | Waiting

  datatype Dispatcher = Dispatcher(
    uid: string,
    name: string,
    timeout: int,
    orders: Orders,
    phase: Phase)

  /** A site is collected when it is more than 70% full and in no order. */
  predicate Qualifies(d: Dumpster) {
    PercentLevel(d) > Threshold && d.orderUid.None?
  }

  /** The qualifying keys among `keys`, in the same order. */
  function CollectFrom(keys: seq<DumpsterId>, entries: map<DumpsterId, Dumpster>): (r: seq<DumpsterId>)
    requires forall i :: 0 <= i < |keys| ==> keys[i] in entries
    ensures forall u :: u in r <==> u in keys && Qualifies(entries[u])
    ensures |r| <= |keys|
    ensures (forall i, j :: 0 <= i < j < |keys| ==> keys[i] != keys[j])
        ==> (forall i, j :: 0 <= i < j < |r| ==> r[i] != r[j])
  {
    if |keys| == 0 then []
    else
      var rest := CollectFrom(keys[1..], entries);
      assert forall u :: u in keys[1..] ==> u in keys;
      if Qualifies(entries[keys[0]]) then [keys[0]] + rest else rest
  }

  /** `r` lists elements of `keys` at the strictly increasing positions `idx`. */
  predicate InOrder(keys: seq<DumpsterId>, r: seq<DumpsterId>, idx: seq<nat>) {
    && Increasing(idx) && |idx| == |r|
    && forall k :: 0 <= k < |r| ==> idx[k] < |keys| && r[k] == keys[idx[k]]
  }

  /** The collected keys keep the order they have among `keys`. */
  lemma {:induction false} CollectFromInOrder(keys: seq<DumpsterId>, entries: map<DumpsterId, Dumpster>)
    requires forall i :: 0 <= i < |keys| ==> keys[i] in entries
    ensures exists idx :: InOrder(keys, CollectFrom(keys, entries), idx)
    decreases |keys|
  {
    if |keys| == 0 {
      assert InOrder(keys, CollectFrom(keys, entries), []);
    } else {
      var rest := CollectFrom(keys[1..], entries);
      CollectFromInOrder(keys[1..], entries);
      var idx' :| InOrder(keys[1..], rest, idx');
      InOrderCons(keys, rest, idx');
      if Qualifies(entries[keys[0]]) {
        assert InOrder(keys, CollectFrom(keys, entries), [0] + Shift(idx'));
      } else {
        assert InOrder(keys, CollectFrom(keys, entries), Shift(idx'));
      }
    }
  }

  /** Positions in the rest of `keys`, one further on, with or without the first key. */
  lemma InOrderCons(keys: seq<DumpsterId>, rest: seq<DumpsterId>, idx': seq<nat>)
    requires |keys| > 0 && InOrder(keys[1..], rest, idx')
    ensures InOrder(keys, rest, Shift(idx'))
    ensures InOrder(keys, [keys[0]] + rest, [0] + Shift(idx'))
  {
    var shifted := Shift(idx');
    ShiftIncreasing(idx');
    forall k | 0 <= k < |rest|
      ensures shifted[k] < |keys| && rest[k] == keys[shifted[k]]
    {
      assert keys[1..][idx'[k]] == keys[shifted[k]];
    }
    var r := [keys[0]] + rest;
    var idx := [0] + shifted;
    forall k | 0 <= k < |r|
      ensures idx[k] < |keys| && r[k] == keys[idx[k]]
    {
      if k > 0 {
        assert idx[k] == shifted[k - 1] && r[k] == rest[k - 1];
      }
    }
  }

  /** The scan of `run`: every site of the table that qualifies, each once, in
      the table's order. */
  function Collect(ds: Dumpsters): (r: seq<DumpsterId>)
    ensures forall u :: u in r <==> u in ds.entries && Qualifies(ds.entries[u])
    ensures forall i, j :: 0 <= i < j < |r| ==> r[i] != r[j]
    ensures exists idx :: InOrder(ds.keys, r, idx)
  {
    CollectFromInOrder(ds.keys, ds.entries);
    CollectFrom(ds.keys, ds.entries)
  }

  /** Stamps every listed site with the order uid. */
  function StampAll(ds: Dumpsters, members: seq<DumpsterId>, order: OrderId): (r: Dumpsters)
    requires forall u :: u in members ==> u in ds.entries
    ensures r.keys == ds.keys && r.entries.Keys == ds.entries.Keys
    ensures forall u :: u in ds.entries && u in members ==> r.entries[u] == SetOrder(ds.entries[u], order)
    ensures forall u :: u in ds.entries && u !in members ==> r.entries[u] == ds.entries[u]
  {
    Update(ds, map u | u in members :: SetOrder(ds.entries[u], order))
  }

  /** One scan with a fresh order uid: an order over exactly the qualifying sites
      when there are at least 16 of them, otherwise nothing at all. */
  function Scan(ds: Dumpsters, orders: Orders, newUid: OrderId): (r: (Dumpsters, Orders))
    ensures |Collect(ds)| < MinOrderSize ==> r == (ds, orders)
    ensures |Collect(ds)| >= MinOrderSize ==>
      && r.1 == Put(orders, newUid, Order(newUid, Collect(ds), Target, None))
      && r.0.keys == ds.keys && r.0.entries.Keys == ds.entries.Keys
      && (forall u :: u in ds.entries ==>
            r.0.entries[u] == if Qualifies(ds.entries[u]) then SetOrder(ds.entries[u], newUid) else ds.entries[u])
  {
    var members := Collect(ds);
    if |members| >= MinOrderSize then
      (StampAll(ds, members, newUid), Put(orders, newUid, Order(newUid, members, Target, None)))
    else (ds, orders)
  }

  /** The position, in insertion order, of the first order no vehicle has taken. */
  function FirstFree(orders: Orders): (r: Option<nat>)
    ensures r.None? <==> forall i :: 0 <= i < |orders.keys| ==> orders.entries[orders.keys[i]].vehicleUid.Some?
    ensures r.Some? ==>
      && r.value < |orders.keys|
      && orders.entries[orders.keys[r.value]].vehicleUid.None?
      && forall j :: 0 <= j < r.value ==> orders.entries[orders.keys[j]].vehicleUid.Some?
  {
    FirstFreeFrom(orders, 0)
  }

  function FirstFreeFrom(orders: Orders, start: nat): (r: Option<nat>)
    requires start <= |orders.keys|
    requires forall j :: 0 <= j < start ==> orders.entries[orders.keys[j]].vehicleUid.Some?
    ensures r.None? <==> forall i :: 0 <= i < |orders.keys| ==> orders.entries[orders.keys[i]].vehicleUid.Some?
    ensures r.Some? ==>
      && start <= r.value < |orders.keys|
      && orders.entries[orders.keys[r.value]].vehicleUid.None?
      && forall j :: 0 <= j < r.value ==> orders.entries[orders.keys[j]].vehicleUid.Some?
    decreases |orders.keys| - start
  {
    if start == |orders.keys| then None
    else if orders.entries[orders.keys[start]].vehicleUid.None? then Some(start)
    else FirstFreeFrom(orders, start + 1)
  }

  /** `get_order`: the first free order in insertion order is given to the caller and
      recorded as taken by it; with no free order nothing changes. */
  function GetOrder(orders: Orders, vehicle: VehicleId): (r: (Orders, Option<Order>))
    ensures FirstFree(orders).None? ==> r == (orders, None)
    ensures FirstFree(orders).Some? ==>
      var k := orders.keys[FirstFree(orders).value];
      && r.1 == Some(SetVehicle(orders.entries[k], vehicle))
      && r.0.keys == orders.keys
      && r.0.entries == orders.entries[k := r.1.value]
  {
    match FirstFree(orders)
    case None => (orders, None)
    case Some(i) =>
      var k := orders.keys[i];
      var o := SetVehicle(orders.entries[k], vehicle);
      (Put(orders, k, o), Some(o))
  }

  /** One resumption of the dispatcher's process. The first one only starts the wait;
      every later one (which therefore follows a full `timeout` wait) scans; both
      end by waiting `timeout` seconds. */
  function Resume(d: Dispatcher, ds: Dumpsters, newUid: OrderId): (r: (Dispatcher, Dumpsters, int))
    ensures r.2 == d.timeout && r.0.phase == Waiting
    ensures r.0.uid == d.uid && r.0.name == d.name && r.0.timeout == d.timeout
    ensures d.phase == Starting ==> r.0.orders == d.orders && r.1 == ds
    ensures d.phase == Waiting ==> (r.1, r.0.orders) == Scan(ds, d.orders, newUid)
  {
    match d.phase
    case Starting => (d.(phase := Waiting), ds, d.timeout)
    case Waiting =>
      var (ds', orders') := Scan(ds, d.orders, newUid);
      (d.(orders := orders', phase := Waiting), ds', d.timeout)
  }

  // ---------------------------------------------------------------------------
  // Properties of the scan

  /** A site already carrying an order is never touched by a scan, so it is never put
      into a second order; a site below the threshold is never touched either. */
  lemma ScanLeavesIneligibleAlone(ds: Dumpsters, orders: Orders, newUid: OrderId, u: DumpsterId)
    requires u in ds.entries && !Qualifies(ds.entries[u])
    ensures u in Scan(ds, orders, newUid).0.entries
    ensures Scan(ds, orders, newUid).0.entries[u] == ds.entries[u]
    ensures forall k :: k in Scan(ds, orders, newUid).1.entries && k !in orders.entries ==>
      u !in Scan(ds, orders, newUid).1.entries[k].dumpsters
  {
  }

  /** When a scan creates an order, its sites are exactly the qualifying ones and each
      of them now carries the new order's uid. */
  lemma ScanCreatesExactOrder(ds: Dumpsters, orders: Orders, newUid: OrderId)
    requires |Collect(ds)| >= MinOrderSize
    ensures var (ds', orders') := Scan(ds, orders, newUid);
      && newUid in orders'.entries
      && orders'.entries[newUid].vehicleUid.None?
      && orders'.entries[newUid].target == Target
      && (forall u :: u in orders'.entries[newUid].dumpsters <==> u in ds.entries && Qualifies(ds.entries[u]))
      && (forall u :: u in orders'.entries[newUid].dumpsters ==> ds'.entries[u].orderUid == Some(newUid))
  {
  }

  /** With a fresh uid the order table only grows: earlier orders keep their place and
      their contents. */
  lemma ScanOnlyAddsOrders(ds: Dumpsters, orders: Orders, newUid: OrderId)
    requires newUid !in orders.entries
    ensures var orders' := Scan(ds, orders, newUid).1;
      && orders'.keys[..|orders.keys|] == orders.keys
      && |orders'.keys| <= |orders.keys| + 1
      && forall k :: k in orders.entries ==> k in orders'.entries && orders'.entries[k] == orders.entries[k]
  {
  }

  // ---------------------------------------------------------------------------
  // Properties of order claiming

  /** An order that has a vehicle keeps it: claiming never reassigns, and leaves the
      table's keys and order as they were. */
  lemma {:induction false} ClaimIsSetOnce(orders: Orders, vehicle: VehicleId)
    ensures var orders' := GetOrder(orders, vehicle).0;
      && orders'.keys == orders.keys
      && orders'.entries.Keys == orders.entries.Keys
      && forall k :: k in orders.entries && orders.entries[k].vehicleUid.Some? ==>
           orders'.entries[k] == orders.entries[k]
  {
    match FirstFree(orders)
    case None =>
    case Some(i) =>
      var k := orders.keys[i];
      assert orders.entries[k].vehicleUid.None?;
  }

  /** Two vehicles asking one after the other never get the same order: the second
      claim lies strictly later in insertion order than the first. */
  lemma {:induction false} ClaimsAreDistinct(orders: Orders, v1: VehicleId, v2: VehicleId)
    requires FirstFree(orders).Some?
    ensures var orders' := GetOrder(orders, v1).0;
      FirstFree(orders').Some? ==> FirstFree(orders').value > FirstFree(orders).value
  {
    var i := FirstFree(orders).value;
    var orders' := GetOrder(orders, v1).0;
    assert orders'.entries[orders.keys[i]].vehicleUid == Some(v1);
    forall j | 0 <= j < i
      ensures orders'.entries[orders'.keys[j]].vehicleUid.Some?
    {
      assert orders'.entries[orders'.keys[j]] == orders.entries[orders.keys[j]];
    }
  }
}

=== FILE: geocoder.dfy ===
/** The geocoder's address handling: `normalize_address`, which splits a registry
    address such as "603000, обл Нижегородская, г Нижний Новгород, ул Минина, д. 1"
    into typed parts, and the city prefix added before an address is geocoded. */
module Geocoder {

  import opened Wrappers
  import opened Tables
  import opened Text

  /** The keys of the result: postal_index, region, city, street, house, building. */
  datatype Category = PostalIndex | Region | City | Street | House | Building

  /** A postal code, kept verbatim, or a `{"type": kind, "value": value}` pair. */
  datatype Part = Postal(code: string) | Typed(kind: string, value: string)

  /** The result, keyed by category in the order the categories first appeared. */
  type Parts = Table<Category, Part>

  /** A part starting with `prefix` is of `category`, with type label `kind`. */
  datatype Rule = Rule(prefix: string, category: Category, kind: string)

  /** The prefix rules, in the order they are tried. */
  const Rules: seq<Rule> := [
    Rule("обл ", Region, "область"),
    Rule("край ", Region, "край"),
    Rule("г ", City, "город"),
    Rule("п ЗАТО п. ", City, "поселок"),
    Rule("ул ", Street, "улица"),
    Rule("пр-кт ", Street, "проспект"),
    Rule("проезд ", Street, "проезд"),
    Rule("пл ", Street, "площадь"),
    Rule("пер ", Street, "переулок"),
    Rule("д. ", House, "дом"),
    Rule("к. ", Building, "корпус"),
    Rule("стр. ", Building, "строение")
  ]

  predicate IsDigit(c: char) {
    '0' <= c <= '9'
  }

  /** `re.fullmatch("\d{6}", part)`: exactly six digits. */
  predicate IsPostal(s: string) {
    |s| == 6 && forall i :: 0 <= i < |s| ==> IsDigit(s[i])
  }

  /** The first rule, at or after `k`, whose prefix starts `part`. */
  function MatchFrom(part: string, k: nat): (r: Option<nat>)
    requires k <= |Rules|
    ensures r.None? <==> forall j :: k <= j < |Rules| ==> !StartsWith(part, Rules[j].prefix)
    ensures r.Some? ==>
      && k <= r.value < |Rules| && StartsWith(part, Rules[r.value].prefix)
      && forall j :: k <= j < r.value ==> !StartsWith(part, Rules[j].prefix)
    decreases |Rules| - k
  {
    if k == |Rules| then None
    else if StartsWith(part, Rules[k].prefix) then Some(k)
    else MatchFrom(part, k + 1)
  }

  /** The category and value of one trimmed part: six digits are a postal code;
      otherwise the first rule whose prefix starts the part decides, and the value is
      the part with every occurrence of that prefix removed; `None` when nothing
      matches. */
  function Classify(part: string): (r: Option<(Category, Part)>)
    ensures IsPostal(part) ==> r == Some((PostalIndex, Postal(part)))
    ensures !IsPostal(part) ==>
      (r.None? <==> forall j :: 0 <= j < |Rules| ==> !StartsWith(part, Rules[j].prefix))
    ensures !IsPostal(part) && r.Some? ==>
      exists k :: 0 <= k < |Rules| && StartsWith(part, Rules[k].prefix)
        && (forall j :: 0 <= j < k ==> !StartsWith(part, Rules[j].prefix))
        && r.value == (Rules[k].category, Typed(Rules[k].kind, ReplaceAll(part, Rules[k].prefix, "")))
  {
    if IsPostal(part) then Some((PostalIndex, Postal(part)))
    else
      match MatchFrom(part, 0)
      case None => None
      case Some(k) =>
        var rule := Rules[k];
        var r := Some((rule.category, Typed(rule.kind, ReplaceAll(part, rule.prefix, ""))));
        assert StartsWith(part, Rules[k].prefix) && forall j :: 0 <= j < k ==> !StartsWith(part, Rules[j].prefix);
        r
  }

  type Entry = (Category, Part)

  /** What a comma-separated piece is classified as, once trimmed. */
  function ClassifyPiece(piece: string): Option<Entry> {
    Classify(Strip(piece))
  }

  function ClassifyAll(pieces: seq<string>): (r: seq<Option<Entry>>)
    ensures |r| == |pieces| && forall i :: 0 <= i < |pieces| ==> r[i] == ClassifyPiece(pieces[i])
  {
    seq(|pieces|, i requires 0 <= i < |pieces| => ClassifyPiece(pieces[i]))
  }

  /** Stores the classified pieces into `acc` one after the other, each under its
      category; the first unclassified piece aborts with its index and no partial
      result. */
  function Fold(entries: seq<Option<Entry>>, acc: Parts): (r: Result<Parts, nat>)
    ensures r.Failure? <==> exists i :: 0 <= i < |entries| && entries[i].None?
    ensures r.Failure? ==>
      && r.error < |entries| && entries[r.error].None?
      && forall j :: 0 <= j < r.error ==> entries[j].Some?
    decreases |entries|
  {
    if |entries| == 0 then Success(acc)
    else
      match entries[0]
      case None => Failure(0)
      case Some(e) =>
        var r := Fold(entries[1..], Put(acc, e.0, e.1));
        assert forall i :: 1 <= i < |entries| ==> entries[1..][i - 1] == entries[i];
        if r.Failure? then Failure(r.error + 1) else r
  }

  /** `normalize_address`: the address split on every comma. */
  function Normalize(address: string): Result<Parts, string> {
    NormalizePieces(Split(address, ","))
  }

  /** The comma-separated pieces, each trimmed and classified; the first unknown
      piece is reported as it reads once trimmed. */
  function NormalizePieces(pieces: seq<string>): (r: Result<Parts, string>)
    ensures r.Failure? <==> exists i :: 0 <= i < |pieces| && ClassifyPiece(pieces[i]).None?
    ensures r.Failure? ==>
      exists i :: 0 <= i < |pieces| && ClassifyPiece(pieces[i]).None? && r.error == Strip(pieces[i])
        && forall j :: 0 <= j < i ==> ClassifyPiece(pieces[j]).Some?
  {
    var entries := ClassifyAll(pieces);
    match Fold(entries, Empty())
    case Success(parts) =>
      assert forall i :: 0 <= i < |pieces| ==> entries[i].Some?;
      Success(parts)
    case Failure(i) =>
      assert entries[i] == ClassifyPiece(pieces[i]);
      assert forall j :: 0 <= j < i ==> entries[j] == ClassifyPiece(pieces[j]);
      Failure(Strip(pieces[i]))
  }

  /** The categories the classified pieces have. */
  function Categories(entries: seq<Option<Entry>>): set<Category> {
    set i | 0 <= i < |entries| && entries[i].Some? :: entries[i].value.0
  }

  /** After a fold, a category is present exactly when it was already there or some
      piece has it. */
  lemma {:induction false} FoldKeys(entries: seq<Option<Entry>>, acc: Parts)
    requires Fold(entries, acc).Success?
    ensures Fold(entries, acc).value.entries.Keys == acc.entries.Keys + Categories(entries)
    decreases |entries|
  {
    if |entries| > 0 {
      var e := entries[0].value;
      var rest := entries[1..];
      var acc' := Put(acc, e.0, e.1);
      assert Fold(entries, acc) == Fold(rest, acc');
      FoldKeys(rest, acc');
      assert acc'.entries.Keys == acc.entries.Keys + {e.0};
      forall c
        ensures c in Categories(entries) <==> c == e.0 || c in Categories(rest)
      {
        if c in Categories(entries) {
          var i :| 0 <= i < |entries| && entries[i].Some? && entries[i].value.0 == c;
          if i > 0 {
            assert rest[i - 1] == entries[i];
          }
        }
        if c in Categories(rest) {
          var i :| 0 <= i < |rest| && rest[i].Some? && rest[i].value.0 == c;
          assert entries[i + 1] == rest[i];
        }
        assert entries[0].Some?;
      }
    }
  }

  /** A later part of a category replaces an earlier one: the category holds the entry
      of the last piece that has it. */
  lemma {:induction false} FoldLastWins(entries: seq<Option<Entry>>, acc: Parts, i: nat)
    requires Fold(entries, acc).Success?
    requires i < |entries|
    requires forall j :: i < j < |entries| ==> entries[j].value.0 != entries[i].value.0
    ensures entries[i].value.0 in Fold(entries, acc).value.entries
    ensures Fold(entries, acc).value.entries[entries[i].value.0] == entries[i].value.1
    decreases |entries|
  {
    var e := entries[0].value;
    var rest := entries[1..];
    if i > 0 {
      assert forall j :: i - 1 < j < |rest| ==> rest[j] == entries[j + 1];
      FoldLastWins(rest, Put(acc, e.0, e.1), i - 1);
    } else {
      assert forall j :: 0 <= j < |rest| ==> rest[j] == entries[j + 1];
      FoldKeeps(rest, Put(acc, e.0, e.1), e.0);
    }
  }

  /** A category no piece has keeps the value it had. */
  lemma {:induction false} FoldKeeps(entries: seq<Option<Entry>>, acc: Parts, c: Category)
    requires Fold(entries, acc).Success?
    requires c in acc.entries
    requires forall i :: 0 <= i < |entries| ==> entries[i].value.0 != c
    ensures c in Fold(entries, acc).value.entries && Fold(entries, acc).value.entries[c] == acc.entries[c]
    decreases |entries|
  {
    if |entries| > 0 {
      var e := entries[0].value;
      assert forall j :: 0 <= j < |entries[1..]| ==> entries[1..][j] == entries[j + 1];
      FoldKeeps(entries[1..], Put(acc, e.0, e.1), c);
    }
  }

  // ---------------------------------------------------------------------------
  // Writing an address back out

  /** One part of a well-formed address: a postal code, or the value of a rule. */
  datatype Component = PostalCode(code: string) | Prefixed(rule: nat, value: string)

  predicate WellFormed(c: Component) {
    match c
    case PostalCode(code) => IsPostal(code)
    case Prefixed(k, v) =>
      && k < |Rules| && |v| > 0 && !IsSpace(v[|v| - 1]) && ',' !in v && !Contains(v, Rules[k].prefix)
  }

  function Show(c: Component): string
    requires WellFormed(c)
  {
    match c
    case PostalCode(code) => code
    case Prefixed(k, v) => Rules[k].prefix + v
  }

  function EntryOf(c: Component): Entry
    requires WellFormed(c)
  {
    match c
    case PostalCode(code) => (PostalIndex, Postal(code))
    case Prefixed(k, v) => (Rules[k].category, Typed(Rules[k].kind, v))
  }

  function Shown(cs: seq<Component>): (r: seq<string>)
    requires forall i :: 0 <= i < |cs| ==> WellFormed(cs[i])
    ensures |r| == |cs| && forall i :: 0 <= i < |cs| ==> r[i] == Show(cs[i])
  {
    seq(|cs|, i requires 0 <= i < |cs| => Show(cs[i]))
  }

  /** The components written out as the registry does, separated by ", ". */
  function Render(cs: seq<Component>): string
    requires forall i :: 0 <= i < |cs| ==> WellFormed(cs[i])
  {
    Join(Shown(cs), ", ")
  }

  /** The table the components describe, built without any parsing. */
  function Assemble(cs: seq<Component>, acc: Parts): Parts
    requires forall i :: 0 <= i < |cs| ==> WellFormed(cs[i])
    decreases |cs|
  {
    if |cs| == 0 then acc else Assemble(cs[1..], Put(acc, EntryOf(cs[0]).0, EntryOf(cs[0]).1))
  }

  function Indent(xs: seq<string>): (r: seq<string>)
    ensures |r| == |xs| && forall i :: 0 <= i < |xs| ==> r[i] == " " + xs[i]
  {
    seq(|xs|, i requires 0 <= i < |xs| => " " + xs[i])
  }

  lemma {:induction false} IndentJoin(xs: seq<string>)
    requires |xs| >= 1
    ensures " " + Join(xs, ", ") == Join(Indent(xs), ",")
    decreases |xs|
  {
    if |xs| > 1 {
      var tail := Join(xs[1..], ", ");
      IndentJoin(xs[1..]);
      assert Indent(xs)[1..] == Indent(xs[1..]);
      SpaceAfterComma(xs[0], tail);
    }
  }

  /** The pieces a rendering splits into: all but the first start with a space. */
  function Pieces(cs: seq<Component>): (r: seq<string>)
    requires |cs| >= 1
    requires forall i :: 0 <= i < |cs| ==> WellFormed(cs[i])
    ensures |r| == |cs|
    ensures r[0] == Show(cs[0]) && forall i :: 1 <= i < |cs| ==> r[i] == " " + Show(cs[i])
  {
    seq(|cs|, i requires 0 <= i < |cs| => if i == 0 then Show(cs[0]) else " " + Show(cs[i]))
  }

  /** Joining on ", " is joining on "," pieces that after the first start with a space. */
  lemma CommaSpaceJoin(xs: seq<string>)
    requires |xs| >= 1
    ensures Join(xs, ", ") == Join([xs[0]] + Indent(xs[1..]), ",")
  {
    if |xs| > 1 {
      var ys := [xs[0]] + Indent(xs[1..]);
      IndentJoin(xs[1..]);
      assert ys[1..] == Indent(xs[1..]);
      SpaceAfterComma(xs[0], Join(xs[1..], ", "));
    }
  }

  lemma SpaceAfterComma(a: string, b: string)
    ensures a + ", " + b == a + "," + (" " + b)
  {
    assert ", " == "," + " ";
  }

  lemma DiffersAt(a: string, b: string, i: nat)
    requires i < |a| && i < |b| && a[i] != b[i]
    ensures !StartsWith(a, b)
  {
    if |b| <= |a| {
      assert a[..|b|][i] == a[i];
    }
  }

  /** No rule prefix starts another: any two differ within their first three
      characters. */
  lemma PrefixesIndependent(j: nat, k: nat)
    requires j < |Rules| && k < |Rules| && j != k
    ensures !StartsWith(Rules[j].prefix, Rules[k].prefix)
  {
    if j < 3 {
      PrefixesDiffer(j, k, 0);
    } else if j < 6 {
      PrefixesDiffer(j, k, 3);
    } else if j < 9 {
      PrefixesDiffer(j, k, 6);
    } else {
      PrefixesDiffer(j, k, 9);
    }
  }

  /** The case split of the comparison, three rules at a time. */
  lemma PrefixesDiffer(j: nat, k: nat, from: nat)
    requires from <= j < from + 3 && j < |Rules| && k < |Rules| && j != k
    ensures !StartsWith(Rules[j].prefix, Rules[k].prefix)
  {
    var a := Rules[j].prefix;
    var b := Rules[k].prefix;
    if a[0] != b[0] {
      DiffersAt(a, b, 0);
    } else if a[1] != b[1] {
      DiffersAt(a, b, 1);
    } else {
      DiffersAt(a, b, 2);
    }
  }

  lemma PrefixShape(k: nat)
    requires k < |Rules|
    ensures |Rules[k].prefix| > 0 && !IsSpace(Rules[k].prefix[0]) && !IsDigit(Rules[k].prefix[0])
    ensures ',' !in Rules[k].prefix
  {
  }

  /** A well-formed component, trimmed, reads back as its own entry. */
  lemma ClassifyShown(c: Component)
    requires WellFormed(c)
    ensures |Show(c)| > 0 && !IsSpace(Show(c)[0]) && !IsSpace(Show(c)[|Show(c)| - 1]) && ',' !in Show(c)
    ensures Classify(Show(c)) == Some(EntryOf(c))
  {
    match c
    case PostalCode(code) =>
    case Prefixed(k, v) =>
      PrefixedShape(k, v);
      ClassifyPrefixed(k, v);
  }

  lemma ClassifyPrefixed(k: nat, v: string)
    requires WellFormed(Prefixed(k, v))
    ensures Classify(Rules[k].prefix + v) == Some((Rules[k].category, Typed(Rules[k].kind, v)))
  {
    PrefixedShape(k, v);
    PrefixedMatch(k, v);
    RemovePrefix(Rules[k].prefix, v);
  }

  lemma PrefixedShape(k: nat, v: string)
    requires WellFormed(Prefixed(k, v))
    ensures var s := Rules[k].prefix + v;
      && !IsSpace(s[0]) && !IsSpace(s[|s| - 1]) && ',' !in s && !IsPostal(s)
  {
    var p := Rules[k].prefix;
    PrefixShape(k);
    var s := p + v;
    assert s[|s| - 1] == v[|v| - 1];
    assert s[0] == p[0];
    assert forall i :: 0 <= i < |s| ==> s[i] in p || s[i] in v;
  }

  /** The rule a prefixed value was written with is the first that matches it. */
  lemma PrefixedMatch(k: nat, v: string)
    requires k < |Rules|
    ensures MatchFrom(Rules[k].prefix + v, 0) == Some(k)
  {
    var p := Rules[k].prefix;
    var s := p + v;
    assert StartsWith(s, p) by {
      assert s[..|p|] == p;
    }
    forall j | 0 <= j < k
      ensures !StartsWith(s, Rules[j].prefix)
    {
      PrefixesIndependent(j, k);
      PrefixesIndependent(k, j);
      NotPrefixOfExtension(p, Rules[j].prefix, v);
    }
  }

  /** Entries that are each the matching component's fold into the assembled table. */
  lemma {:induction false} FoldClassified(cs: seq<Component>, entries: seq<Option<Entry>>, acc: Parts)
    requires forall i :: 0 <= i < |cs| ==> WellFormed(cs[i])
    requires |entries| == |cs|
    requires forall i :: 0 <= i < |cs| ==> entries[i] == Some(EntryOf(cs[i]))
    ensures Fold(entries, acc) == Success(Assemble(cs, acc))
    decreases |cs|
  {
    if |cs| > 0 {
      FoldClassified(cs[1..], entries[1..], Put(acc, EntryOf(cs[0]).0, EntryOf(cs[0]).1));
    }
  }

  /** A rendering splits back into its pieces. */
  lemma RenderSplits(cs: seq<Component>)
    requires |cs| >= 1
    requires forall i :: 0 <= i < |cs| ==> WellFormed(cs[i])
    ensures Split(Render(cs), ",") == Pieces(cs)
  {
    var xs := Shown(cs);
    var pieces := Pieces(cs);
    CommaSpaceJoin(xs);
    assert pieces == [xs[0]] + Indent(xs[1..]) by {
      assert forall i :: 1 <= i < |cs| ==> ([xs[0]] + Indent(xs[1..]))[i] == " " + xs[1..][i - 1];
    }
    forall i | 0 <= i < |pieces|
      ensures ',' !in pieces[i]
    {
      ClassifyShown(cs[i]);
    }
    SplitJoin(pieces, ",");
  }

  /** Every piece of a rendering classifies as its component's entry. */
  lemma PiecesClassify(cs: seq<Component>, i: nat)
    requires |cs| >= 1 && i < |cs|
    requires forall i :: 0 <= i < |cs| ==> WellFormed(cs[i])
    ensures ClassifyPiece(Pieces(cs)[i]) == Some(EntryOf(cs[i]))
  {
    ClassifyShown(cs[i]);
    if i == 0 {
      StripTrimmed(Show(cs[0]));
    } else {
      StripLeadingSpace(Show(cs[i]));
    }
  }

  /** Round trip: a non-empty list of well-formed components, written out, normalizes
      to exactly the table those components describe. */
  lemma NormalizeRender(cs: seq<Component>)
    requires |cs| >= 1
    requires forall i :: 0 <= i < |cs| ==> WellFormed(cs[i])
    ensures Normalize(Render(cs)) == Success(Assemble(cs, Empty()))
  {
    var pieces := Pieces(cs);
    RenderSplits(cs);
    var entries := ClassifyAll(pieces);
    forall i | 0 <= i < |cs|
      ensures entries[i] == Some(EntryOf(cs[i]))
    {
      PiecesClassify(cs, i);
    }
    FoldClassified(cs, entries, Empty());
    assert NormalizePieces(pieces) == Success(Assemble(cs, Empty()));
  }

  /** An empty part, such as the one after a trailing comma, makes the whole address
      fail. */
  lemma TrailingCommaFails(address: string)
    ensures Normalize(address + ",").Failure?
  {
    var pieces := Split(address + ",", ",");
    SplitTrailing(address, ',');
    assert Strip(pieces[|pieces| - 1]) == "";
    assert ClassifyPiece(pieces[|pieces| - 1]).None? by {
      forall j | 0 <= j < |Rules|
        ensures !StartsWith("", Rules[j].prefix)
      {
        PrefixShape(j);
      }
    }
  }

  lemma {:induction false} SplitTrailing(s: string, c: char)
    ensures |Split(s + [c], [c])| >= 2 && Split(s + [c], [c])[|Split(s + [c], [c])| - 1] == ""
    decreases |s|
  {
    var t := s + [c];
    if |s| == 0 {
      assert t[1..] == [];
    } else if StartsWith(t, [c]) {
      assert t[1..] == s[1..] + [c];
      SplitTrailing(s[1..], c);
    } else {
      assert t[1..] == s[1..] + [c];
      SplitTrailing(s[1..], c);
    }
  }

  // ---------------------------------------------------------------------------
  // The city prefix

  /** The city every geocoded address is qualified with. */
  const CityPrefix: string := "Нижний Новгород"

  /** `get_coordinates`' qualification: the prefix and ", " go in front of an address
      unless the prefix already occurs somewhere in it. */
  function WithPrefix(address: string, prefix: string): (r: string)
    ensures Contains(r, prefix)
    ensures Contains(address, prefix) ==> r == address
    ensures !Contains(address, prefix) ==> StartsWith(r, prefix + ", ") && r[|prefix| + 2..] == address
  {
    if Contains(address, prefix) then address
    else
      var r := prefix + ", " + address;
      assert OccursAt(r, prefix, 0) by {
        assert r[..|prefix|] == prefix;
      }
      assert r[..|prefix| + 2] == prefix + ", ";
      r
  }

  /** Qualifying twice is qualifying once. */
  lemma WithPrefixIdempotent(address: string, prefix: string)
    ensures WithPrefix(WithPrefix(address, prefix), prefix) == WithPrefix(address, prefix)
  {
  }
}

=== FILE: geoprocessing.dfy ===
/** Data preparation for the simulation: the container-site registry is read from its
    district sheets, each site is snapped to the road network, and each house is
    linked to the site nearest to it on foot. The routing service's `nearest` and
    `table` answers are parameters. */
module Geoprocessing {

  import opened Wrappers
  import opened Tables
  import opened Text

  // ---------------------------------------------------------------------------
  // Reading the registry

  const Districts: seq<string> := [
    "Автозаводский", "Канавинский", "Ленинский", "Московский",
    "Нижегородский", "Приокский", "Советский", "Сормовский"
  ]

  const Sections: seq<string> := ["4.1.1.1", "4.1.1.2", "4.1.1.3", "4.1.1.4", "4.1.1.5", "4.1.1.6", "4.1.1.7", "4.1.1.8"]

  /** The registry's sheet of the `k`-th district, in the order they are read: section
      number, a space, district. */
  function Sheet(k: nat): string
    requires k < |Districts|
  {
    Sections[k] + " " + Districts[k]
  }

  /** A registry row: the text of its first cell (the site's number within its
      district), and the house coordinates cell, empty or "latitude, longitude". */
  datatype Row = Row(number: string, coordinates: Option<string>)

  /** The sheets of a workbook by name. */
  type Workbook = map<string, seq<Row>>

  /** One position returned by the routing service, as `[longitude, latitude]`. */
  datatype Waypoint = Waypoint(location: seq<real>)

  /** Whether a site has been snapped to a road: not yet, or to the `waypoints` of the
      service's reply (which may lack them). */
  datatype Placement = Unplaced | Placed(waypoints: Option<seq<Waypoint>>)

  datatype Site = Site(area: string, coordinates: Option<string>, placement: Placement)

  type Sites = Table<string, Site>

  /** The district of a sheet: the last word of its name (`None` for a blank name). */
  function AreaName(sheet: string): Option<string> {
    LastWord(sheet)
  }

  /** A site's key: district, "_", number. */
  function Key(area: string, number: string): string {
    area + "_" + number
  }

  /** The rows of a sheet as the pairs stored: each under its key, as a site not yet
      snapped. */
  function SheetEntries(area: string, rows: seq<Row>): (r: seq<(string, Site)>)
    ensures |r| == |rows|
    ensures forall i :: 0 <= i < |rows| ==> r[i] == (Key(area, rows[i].number), Site(area, rows[i].coordinates, Unplaced))
  {
    seq(|rows|, i requires 0 <= i < |rows| => (Key(area, rows[i].number), Site(area, rows[i].coordinates, Unplaced)))
  }

  /** Within one district the key determines the number. */
  lemma KeyNumber(area: string, n1: string, n2: string)
    requires Key(area, n1) == Key(area, n2)
    ensures n1 == n2
  {
    assert n1 == Key(area, n1)[|area| + 1..];
  }

  /** Reads the rows of one sheet into `acc`: each row is stored under its key, a later
      row with the same key replacing the earlier one's value but not its place. */
  function LoadSheet(area: string, rows: seq<Row>, acc: Sites): (r: Sites)
    ensures forall k :: k in r.entries <==> k in acc.entries || exists i :: 0 <= i < |rows| && Key(area, rows[i].number) == k
    ensures forall k :: k in r.entries ==> (k in acc.entries && r.entries[k] == acc.entries[k]) || r.entries[k].area == area
  {
    var es := SheetEntries(area, rows);
    PutAllKeys(acc, es);
    PutAll(acc, es)
  }

  /** A row no later row shares a number with gives its key its site. */
  lemma LoadSheetRow(area: string, rows: seq<Row>, acc: Sites, i: nat)
    requires i < |rows|
    requires forall j :: i < j < |rows| ==> rows[j].number != rows[i].number
    ensures Key(area, rows[i].number) in LoadSheet(area, rows, acc).entries
    ensures LoadSheet(area, rows, acc).entries[Key(area, rows[i].number)] == Site(area, rows[i].coordinates, Unplaced)
  {
    var es := SheetEntries(area, rows);
    forall j | i < j < |es|
      ensures es[j].0 != es[i].0
    {
      if es[j].0 == es[i].0 {
        KeyNumber(area, rows[j].number, rows[i].number);
      }
    }
    PutAllLast(acc, es, i);
  }

  /** The keys already read keep their places; the keys a sheet adds come after them,
      in the order of the rows that first bring them. */
  lemma LoadSheetOrder(area: string, rows: seq<Row>, acc: Sites)
    ensures var r := LoadSheet(area, rows, acc);
      && |acc.keys| <= |r.keys| && r.keys[..|acc.keys|] == acc.keys
      && (forall a :: |acc.keys| <= a < |r.keys| ==> r.keys[a] !in acc.entries)
      && (forall a :: |acc.keys| <= a < |r.keys| ==> exists i :: 0 <= i < |rows| && SheetEntries(area, rows)[i].0 == r.keys[a])
      && forall a, b :: |acc.keys| <= a < b < |r.keys| ==>
           FirstIndex(SheetEntries(area, rows), r.keys[a]) < FirstIndex(SheetEntries(area, rows), r.keys[b])
  {
    PutAllPrefix(acc, SheetEntries(area, rows));
    PutAllOrder(acc, SheetEntries(area, rows));
  }

  /** The pairs of the sheets from the `k`-th on, sheet after sheet. */
  function AllEntries(wb: Workbook, k: nat): seq<(string, Site)>
    requires k <= |Districts|
    requires forall j :: k <= j < |Districts| ==> Sheet(j) in wb
    decreases |Districts| - k
  {
    if k == |Districts| then [] else SheetEntries(Districts[k], wb[Sheet(k)]) + AllEntries(wb, k + 1)
  }

  /** `load_dumpsters`: the sheets in order, each read under its district; a missing
      sheet aborts. */
  function LoadFrom(wb: Workbook, k: nat, acc: Sites): (r: Result<Sites, string>)
    requires k <= |Districts|
    ensures r.Failure? <==> exists j :: k <= j < |Districts| && Sheet(j) !in wb
    ensures r.Success? ==> forall u :: u in r.value.entries <==>
      u in acc.entries || exists j, i :: k <= j < |Districts| && 0 <= i < |wb[Sheet(j)]| && u == Key(Districts[j], wb[Sheet(j)][i].number)
    decreases |Districts| - k
  {
    if k == |Districts| then Success(acc)
    else if Sheet(k) !in wb then Failure("KeyError: " + Sheet(k))
    else LoadFrom(wb, k + 1, LoadSheet(Districts[k], wb[Sheet(k)], acc))
  }

  /** Reading the sheets one after the other stores all their rows in turn. */
  lemma {:induction false} LoadFromAll(wb: Workbook, k: nat, acc: Sites)
    requires k <= |Districts|
    requires forall j :: k <= j < |Districts| ==> Sheet(j) in wb
    ensures LoadFrom(wb, k, acc) == Success(PutAll(acc, AllEntries(wb, k)))
    decreases |Districts| - k
  {
    if k < |Districts| {
      var es := SheetEntries(Districts[k], wb[Sheet(k)]);
      LoadFromAll(wb, k + 1, PutAll(acc, es));
      PutAllAppend(acc, es, AllEntries(wb, k + 1));
    }
  }

  /** What the sheets from the `k`-th on hold once read: each key has the site of its
      last row, and the new keys are in the order of their first row. */
  lemma LoadFromContents(wb: Workbook, k: nat, acc: Sites, i: nat)
    requires k <= |Districts|
    requires forall j :: k <= j < |Districts| ==> Sheet(j) in wb
    ensures var all := AllEntries(wb, k);
      var r := LoadFrom(wb, k, acc);
      && r.Success?
      && (i < |all| && LastOf(all, i) ==> all[i].0 in r.value.entries && r.value.entries[all[i].0] == all[i].1)
      && |acc.keys| <= |r.value.keys| && r.value.keys[..|acc.keys|] == acc.keys
      && (forall a :: |acc.keys| <= a < |r.value.keys| ==> exists j :: 0 <= j < |all| && all[j].0 == r.value.keys[a])
      && forall a, b :: |acc.keys| <= a < b < |r.value.keys| ==>
           FirstIndex(all, r.value.keys[a]) < FirstIndex(all, r.value.keys[b])
  {
    var all := AllEntries(wb, k);
    LoadFromAll(wb, k, acc);
    if i < |all| && LastOf(all, i) {
      PutAllLast(acc, all, i);
    }
    PutAllPrefix(acc, all);
    PutAllOrder(acc, all);
  }

  /** The registry: every row of the eight sheets stored in turn under its key. Its
      values and key order are those `LoadFromContents` states from sheet 0 on with an
      empty table. */
  function LoadDumpsters(wb: Workbook): (r: Result<Sites, string>)
    ensures r.Failure? <==> exists j :: 0 <= j < |Districts| && Sheet(j) !in wb
    ensures r.Success? ==> forall u :: u in r.value.entries <==>
      exists j, i :: 0 <= j < |Districts| && 0 <= i < |wb[Sheet(j)]| && u == Key(Districts[j], wb[Sheet(j)][i].number)
  {
    LoadFrom(wb, 0, Empty())
  }

  lemma DistrictWords()
    ensures forall k :: 0 <= k < |Districts| ==> |Districts[k]| > 0 && NoSpace(Districts[k])
  {
  }

  /** The district a sheet is read under is the last word of its name. */
  lemma SheetArea(k: nat)
    requires k < |Districts|
    ensures AreaName(Sheet(k)) == Some(Districts[k])
  {
    DistrictWords();
    var code := Sections[k] + " ";
    assert Sheet(k) == code + Districts[k] + "";
    LastWordOf(code, Districts[k], "");
  }

  /** Keys of districts without "_" are unambiguous: the key determines district and
      number. */
  lemma KeyInjective(a1: string, n1: string, a2: string, n2: string)
    requires '_' !in a1 && '_' !in a2
    requires Key(a1, n1) == Key(a2, n2)
    ensures a1 == a2 && n1 == n2
  {
    var s := Key(a1, n1);
    UnderscoreAfter(a1, n1);
    UnderscoreAfter(a2, n2);
    assert |a1| == |a2|;
    assert a1 == s[..|a1|] == a2;
    assert n1 == s[|a1| + 1..] == n2;
  }

  lemma UnderscoreAfter(a: string, n: string)
    requires '_' !in a
    ensures forall j :: 0 <= j < |a| ==> Key(a, n)[j] != '_'
    ensures Key(a, n)[|a|] == '_'
  {
    assert forall j :: 0 <= j < |a| ==> Key(a, n)[j] == a[j];
  }

  // ---------------------------------------------------------------------------
  // Snapping the sites to the road

  /** `",".join(coordinates.split(", ")[::-1])` */
  function Swap(coordinates: string): string {
    Join(Reverse(Split(coordinates, ", ")), ",")
  }

  function Reverse<T>(xs: seq<T>): (r: seq<T>)
    ensures |r| == |xs| && forall i :: 0 <= i < |xs| ==> r[i] == xs[|xs| - 1 - i]
  {
    seq(|xs|, i requires 0 <= i < |xs| => xs[|xs| - 1 - i])
  }

  /** "latitude, longitude" becomes "longitude,latitude", the order the routing service
      reads. */
  lemma SwapPair(a: string, b: string)
    requires ',' !in a && ',' !in b
    ensures Swap(a + ", " + b) == b + "," + a
  {
    var sep := ", ";
    assert sep[0] == ',';
    SplitFirstPiece(a, sep, b);
    SplitNoSeparator(b, sep);
    assert Split(a + sep + b, sep) == [a, b];
    assert Reverse([a, b]) == [b, a];
    assert [b, a][1..] == [a];
    assert Join([b, a], ",") == b + "," + Join([a], ",");
  }

  /** The reply of the `nearest` service. */
  datatype RoadReply = RoadReply(code: string, waypoints: Option<seq<Waypoint>>)
  type RoadService = string -> RoadReply

  /** One site of `link_to_road`: a site without coordinates is left alone, and so is
      one whose request fails; otherwise it is placed at the reply's waypoints. */
  function Snap(s: Site, nearest: RoadService): (r: Site)
    ensures r.area == s.area && r.coordinates == s.coordinates
    ensures s.coordinates.None? || s.coordinates == Some("") ==> r == s
    ensures s.coordinates.Some? && s.coordinates.value != "" ==>
      var reply := nearest(Swap(s.coordinates.value));
      r == if reply.code == "Ok" then s.(placement := Placed(reply.waypoints)) else s
  {
    match s.coordinates
    case None => s
    case Some(c) =>
      if c == "" then s
      else
        var reply := nearest(Swap(c));
        if reply.code == "Ok" then s.(placement := Placed(reply.waypoints)) else s
  }

  /** `link_to_road`: every site snapped in place; keys and their order are kept. */
  function LinkToRoad(sites: Sites, nearest: RoadService): (r: Sites)
    ensures r.keys == sites.keys && r.entries.Keys == sites.entries.Keys
    ensures forall k :: k in sites.entries ==> r.entries[k] == Snap(sites.entries[k], nearest)
  {
    Update(sites, map k | k in sites.entries :: Snap(sites.entries[k], nearest))
  }

  // ---------------------------------------------------------------------------
  // Candidate sites around a house

  /** A position in degrees. */
  datatype Point = Point(latitude: real, longitude: real)

  /** The half-widths of the boxes tried around a house, in degrees. */
  const Thresholds: seq<real> := [0.005, 0.01, 0.015, 0.02, 0.03, 0.04, 0.05, 0.1]

  /** Where a site is: `None` for one never snapped (the KeyError that is skipped);
      a failure for the errors that are not caught: no waypoints, an empty list, a
      location that is not a pair. */
  function Locate(s: Site): (r: Result<Option<Point>, string>)
    ensures r == Success(None) <==> s.placement.Unplaced?
    ensures r.Failure? <==>
      && s.placement.Placed?
      && (|| s.placement.waypoints.None?
          || |s.placement.waypoints.value| == 0
          || |s.placement.waypoints.value[0].location| != 2)
    ensures r.Success? && r.value.Some? ==>
      var location := s.placement.waypoints.value[0].location;
      r.value.value.longitude == location[0] && r.value.value.latitude == location[1]
  {
    match s.placement
    case Unplaced => Success(None)
    case Placed(None) => Failure("TypeError: no waypoints")
    case Placed(Some(ws)) =>
      if |ws| == 0 then Failure("IndexError: empty waypoints")
      else if |ws[0].location| != 2 then Failure("ValueError: location is not a pair")
      else Success(Some(Point(ws[0].location[1], ws[0].location[0])))
  }

  type Located = seq<(string, Option<Point>)>

  /** The sites in table order with their positions, or the first error. */
  function LocateAll(items: seq<(string, Site)>): (r: Result<Located, string>)
    ensures r.Failure? <==> exists i :: 0 <= i < |items| && Locate(items[i].1).Failure?
    ensures r.Success? ==> (|r.value| == |items|
      && forall i :: 0 <= i < |items| ==> r.value[i] == (items[i].0, Locate(items[i].1).value))
    decreases |items|
  {
    if |items| == 0 then Success([])
    else
      var tail := LocateAll(items[1..]);
      assert forall i :: 1 <= i < |items| ==> items[1..][i - 1] == items[i];
      match Locate(items[0].1)
      case Failure(e) => Failure(e)
      case Success(p) =>
        match tail
        case Failure(e) => Failure(e)
        case Success(rest) => Success([(items[0].0, p)] + rest)
  }

  /** The box of half-width `t` around the house, bounds included. */
  predicate Within(p: Point, house: Point, t: real) {
    && house.latitude - t <= p.latitude <= house.latitude + t
    && house.longitude - t <= p.longitude <= house.longitude + t
  }

  /** The located sites inside the box, in table order. */
  function Window(house: Point, located: Located, t: real): (r: seq<(string, Point)>)
    ensures |r| <= |located|
    ensures forall c :: c in r <==>
      exists i :: 0 <= i < |located| && located[i].1 == Some(c.1) && located[i].0 == c.0 && Within(c.1, house, t)
    decreases |located|
  {
    if |located| == 0 then []
    else
      var tail := Window(house, located[1..], t);
      assert forall i :: 1 <= i < |located| ==> located[1..][i - 1] == located[i];
      match located[0].1
      case None => tail
      case Some(p) => if Within(p, house, t) then [(located[0].0, p)] + tail else tail
  }

  /** Entry `i` of the table is located inside the box. */
  predicate Hit(house: Point, located: Located, t: real, i: int)
    requires 0 <= i < |located|
  {
    located[i].1.Some? && Within(located[i].1.value, house, t)
  }

  /** Element `k` of `r` is the located entry at position `idx[k]` of the table. */
  predicate Picks(located: Located, r: seq<(string, Point)>, idx: seq<nat>) {
    && |idx| == |r|
    && forall k :: 0 <= k < |r| ==> idx[k] < |located| && located[idx[k]] == (r[k].0, Some(r[k].1))
  }

  /** Every entry located inside the box has its position among `idx`. */
  predicate Covers(house: Point, located: Located, t: real, idx: seq<nat>) {
    forall i :: 0 <= i < |located| && Hit(house, located, t, i) ==> i in idx
  }

  /** The sites of a box stand at increasing positions of the table, and every located
      site inside the box is among them: the window is the table filtered, in table
      order.
      The positions are a witness rather than a filter function, so the statement
      says directly that the window is an ordered selection of the table's entries,
      without a second definition of the window to compare it with. */
  predicate Indexes(house: Point, located: Located, t: real, r: seq<(string, Point)>, idx: seq<nat>) {
    Increasing(idx) && Picks(located, r, idx) && Covers(house, located, t, idx)
  }

  lemma {:induction false} WindowInOrder(house: Point, located: Located, t: real)
    ensures exists idx :: Indexes(house, located, t, Window(house, located, t), idx)
    decreases |located|
  {
    if |located| == 0 {
      assert Indexes(house, located, t, Window(house, located, t), []);
    } else {
      WindowInOrder(house, located[1..], t);
      var idx' :| Indexes(house, located[1..], t, Window(house, located[1..], t), idx');
      assert Window(house, located, t) == Front(house, located, t) + Window(house, located[1..], t);
      IndexesCons(house, located, t, Window(house, located[1..], t), idx');
    }
  }

  /** The first site as a window of its own: itself when it is located in the box. */
  function Front(house: Point, located: Located, t: real): seq<(string, Point)>
    requires |located| > 0
  {
    if Hit(house, located, t, 0) then [(located[0].0, located[0].1.value)] else []
  }

  /** The positions of a window of the rest, one further on, after the first site's
      position when it lies in the box. */
  lemma IndexesCons(house: Point, located: Located, t: real, w: seq<(string, Point)>, idx': seq<nat>)
    requires |located| > 0
    requires Indexes(house, located[1..], t, w, idx')
    ensures exists idx :: Indexes(house, located, t, Front(house, located, t) + w, idx)
  {
    var shifted := Shift(idx');
    ShiftIncreasing(idx');
    ShiftPicks(located, w, idx');
    ShiftCovers(house, located, t, idx');
    if Hit(house, located, t, 0) {
      var x := (located[0].0, located[0].1.value);
      ConsPicks(located, x, w, shifted);
      assert Covers(house, located, t, [0] + shifted) by {
        forall i | 0 <= i < |located| && Hit(house, located, t, i)
          ensures i in [0] + shifted
        {
          if i == 0 {
            assert ([0] + shifted)[0] == 0;
          } else {
            assert i in shifted;
          }
        }
      }
      assert Front(house, located, t) == [x];
      assert Indexes(house, located, t, [x] + w, [0] + shifted);
    } else {
      assert Front(house, located, t) + w == w;
      assert Indexes(house, located, t, w, shifted);
    }
  }

  /** Positions in the rest of the table are positions one further on in the table. */
  lemma ShiftPicks(located: Located, w: seq<(string, Point)>, idx: seq<nat>)
    requires |located| > 0 && Picks(located[1..], w, idx)
    ensures Picks(located, w, Shift(idx))
  {
    var s := Shift(idx);
    forall k | 0 <= k < |w|
      ensures s[k] < |located| && located[s[k]] == (w[k].0, Some(w[k].1))
    {
      assert located[1..][idx[k]] == located[s[k]];
    }
  }

  /** The first entry, at position 0, in front of entries further on. */
  lemma ConsPicks(located: Located, x: (string, Point), w: seq<(string, Point)>, idx: seq<nat>)
    requires |located| > 0 && located[0] == (x.0, Some(x.1))
    requires Picks(located, w, idx)
    ensures Picks(located, [x] + w, [0] + idx)
  {
    forall k | 0 <= k < |[x] + w|
      ensures ([0] + idx)[k] < |located| && located[([0] + idx)[k]] == (([x] + w)[k].0, Some(([x] + w)[k].1))
    {
      if k > 0 {
        assert ([0] + idx)[k] == idx[k - 1] && ([x] + w)[k] == w[k - 1];
      }
    }
  }

  /** An entry inside the box past the first one is found one further on. */
  lemma ShiftCovers(house: Point, located: Located, t: real, idx: seq<nat>)
    requires |located| > 0 && Covers(house, located[1..], t, idx)
    ensures forall i :: 0 < i < |located| && Hit(house, located, t, i) ==> i in Shift(idx)
  {
    var s := Shift(idx);
    forall i | 0 < i < |located| && Hit(house, located, t, i)
      ensures i in s
    {
      assert located[1..][i - 1] == located[i];
      assert Hit(house, located[1..], t, i - 1);
      var k :| 0 <= k < |idx| && idx[k] == i - 1;
      assert s[k] == i;
    }
  }

  /** The windows of the first `k` thresholds, one after the other. */
  function Accumulated(house: Point, located: Located, k: nat): seq<(string, Point)>
    requires k <= |Thresholds|
  {
    if k == 0 then [] else Accumulated(house, located, k - 1) + Window(house, located, Thresholds[k - 1])
  }

  /** The search loop from threshold `k` on, with the list gathered so far. */
  function Gather(house: Point, located: Located, k: nat, acc: seq<(string, Point)>): (r: seq<(string, Point)>)
    requires k < |Thresholds|
    requires acc == Accumulated(house, located, k)
    requires forall j :: 1 <= j <= k ==> |Accumulated(house, located, j)| < 3
    ensures exists n ::
      && k < n <= |Thresholds| && r == Accumulated(house, located, n)
      && (|r| >= 3 || n == |Thresholds|)
      && forall j :: 1 <= j < n ==> |Accumulated(house, located, j)| < 3
    decreases |Thresholds| - k
  {
    var acc' := acc + Window(house, located, Thresholds[k]);
    assert acc' == Accumulated(house, located, k + 1);
    if |acc'| >= 3 || k + 1 == |Thresholds| then acc'
    else Gather(house, located, k + 1, acc')
  }

  /** The candidates of a house: the boxes are tried from the smallest, each adding its
      sites to the list without clearing it, until the list holds three or the largest
      box has been tried. */
  function Candidates(house: Point, located: Located): (r: seq<(string, Point)>)
    ensures exists n ::
      && 1 <= n <= |Thresholds| && r == Accumulated(house, located, n)
      && (|r| >= 3 || n == |Thresholds|)
      && forall j :: 1 <= j < n ==> |Accumulated(house, located, j)| < 3
  {
    Gather(house, located, 0, [])
  }

  /** A larger box holds every site of a smaller one. */
  lemma WindowGrows(house: Point, located: Located, t1: real, t2: real, c: (string, Point))
    requires t1 <= t2
    requires c in Window(house, located, t1)
    ensures c in Window(house, located, t2)
  {
  }

  lemma ThresholdsAscend(j: nat, k: nat)
    requires j <= k < |Thresholds|
    ensures Thresholds[j] <= Thresholds[k]
  {
  }

  /** Because the list is never cleared, a site of the first box is listed once for
      every box tried. */
  lemma {:induction false} FirstBoxRepeats(house: Point, located: Located, n: nat, c: (string, Point))
    requires n <= |Thresholds|
    requires c in Window(house, located, Thresholds[0])
    ensures multiset(Accumulated(house, located, n))[c] >= n
    decreases n
  {
    if n > 0 {
      var k := n - 1;
      FirstBoxRepeats(house, located, k, c);
      FirstBoxInEvery(house, located, k, c);
      CountAppend(Accumulated(house, located, k), Window(house, located, Thresholds[k]), c);
    }
  }

  /** A site of the first box lies in every box. */
  lemma FirstBoxInEvery(house: Point, located: Located, k: nat, c: (string, Point))
    requires k < |Thresholds|
    requires c in Window(house, located, Thresholds[0])
    ensures c in Window(house, located, Thresholds[k])
  {
    ThresholdsAscend(0, k);
    WindowGrows(house, located, Thresholds[0], Thresholds[k], c);
  }

  /** Appending a sequence that holds `x` adds at least one occurrence of `x`. */
  lemma CountAppend<T>(a: seq<T>, b: seq<T>, x: T)
    requires x in b
    ensures multiset(a + b)[x] >= multiset(a)[x] + 1
  {
    assert multiset(a + b) == multiset(a) + multiset(b);
  }

  // ---------------------------------------------------------------------------
  // Picking the nearest candidate

  /** The scan from index `n` on, with the best index so far: an index replaces the best
      only when its duration is strictly smaller. */
  function MinFrom(d: seq<real>, n: nat, best: Option<nat>): (r: Option<nat>)
    requires n <= |d|
    requires best.None? <==> n == 0
    requires best.Some? ==> best.value < n
    requires best.Some? ==> forall j :: 0 <= j < n ==> d[best.value] <= d[j]
    requires best.Some? ==> forall j :: 0 <= j < best.value ==> d[j] > d[best.value]
    ensures r.None? <==> |d| == 0
    ensures r.Some? ==> r.value < |d|
    ensures r.Some? ==> forall j :: 0 <= j < |d| ==> d[r.value] <= d[j]
    ensures r.Some? ==> forall j :: 0 <= j < r.value ==> d[j] > d[r.value]
    decreases |d| - n
  {
    if n == |d| then best
    else if best.None? || d[n] < d[best.value] then MinFrom(d, n + 1, Some(n))
    else MinFrom(d, n + 1, best)
  }

  /** The index of the first strictly smallest duration, if there is any duration. */
  function FirstMin(d: seq<real>): (r: Option<nat>)
    ensures r.None? <==> |d| == 0
    ensures r.Some? ==> r.value < |d|
    ensures r.Some? ==> forall j :: 0 <= j < |d| ==> d[r.value] <= d[j]
    ensures r.Some? ==> forall j :: 0 <= j < r.value ==> d[j] > d[r.value]
  {
    MinFrom(d, 0, None)
  }

  /** The first strict minimum is the only index that is at most every duration and
      strictly below all earlier ones. */
  lemma FirstMinUnique(d: seq<real>, m: nat)
    requires m < |d|
    requires forall j :: 0 <= j < |d| ==> d[m] <= d[j]
    requires forall j :: 0 <= j < m ==> d[j] > d[m]
    ensures FirstMin(d) == Some(m)
  {
    var r := FirstMin(d).value;
    assert d[r] == d[m];
  }

  /** The reply of the `table` service for the house and its candidates: the rows of
      durations in seconds. */
  datatype TableReply = TableReply(code: string, durations: Option<seq<seq<real>>>)
  type TableService = (Point, seq<Point>) -> TableReply

  datatype Link = Link(site: string, duration: real)

  function Positions(cs: seq<(string, Point)>): (r: seq<Point>)
    ensures |r| == |cs| && forall i :: 0 <= i < |cs| ==> r[i] == cs[i].1
  {
    seq(|cs|, i requires 0 <= i < |cs| => cs[i].1)
  }

  /** The pick among the candidates: the one with the first strictly smallest duration
      in the reply's first row; none when the request fails or the row is empty; an
      error for a reply without durations and for an index past the candidates. */
  function Choose(cs: seq<(string, Point)>, reply: TableReply): (r: Result<Option<Link>, string>)
    ensures reply.code != "Ok" ==> r == Success(None)
    ensures r.Failure? <==>
      && reply.code == "Ok"
      && (|| reply.durations.None?
          || |reply.durations.value| == 0
          || (FirstMin(reply.durations.value[0]).Some? && FirstMin(reply.durations.value[0]).value >= |cs|))
    ensures r == Success(None) <==>
      || reply.code != "Ok"
      || (reply.durations.Some? && |reply.durations.value| > 0 && |reply.durations.value[0]| == 0)
    ensures r.Success? && r.value.Some? ==>
      && reply.code == "Ok" && reply.durations.Some? && |reply.durations.value| > 0
      && var row := reply.durations.value[0];
         exists m ::
           && 0 <= m < |cs| && m < |row| && r.value.value == Link(cs[m].0, row[m])
           && (forall j :: 0 <= j < |row| ==> row[m] <= row[j])
           && (forall j :: 0 <= j < m ==> row[j] > row[m])
  {
    if reply.code != "Ok" then Success(None)
    else
      match reply.durations
      case None => Failure("TypeError: no durations")
      case Some(rows) =>
        if |rows| == 0 then Failure("IndexError: no rows")
        else
          match FirstMin(rows[0])
          case None => Success(None)
          case Some(m) =>
            if m < |cs| then Success(Some(Link(cs[m].0, rows[0][m])))
            else Failure("IndexError: no such candidate")
  }

  /** The nearest site of one house. */
  function LinkHouse(house: Point, located: Located, table: TableService): Result<Option<Link>, string> {
    var cs := Candidates(house, located);
    Choose(cs, table(house, Positions(cs)))
  }

  type Houses = seq<(string, Point)>

  /** The linking of one house, as `LinkHouse` with the sites and the service fixed. */
  type Linker = Point -> Result<Option<Link>, string>

  /** The result of `link_to_nearest_dumpster` as written: each linked house refers to
      its site's record, and a site's record carries one `duration`, the one written by
      the last house linked to it. */
  datatype Nearest = Nearest(links: Table<string, string>, durations: map<string, real>)

  /** Every linked site has a duration. */
  predicate Coherent(n: Nearest) {
    forall a :: a in n.links.entries ==> n.links.entries[a] in n.durations
  }

  /** The duration reported for a linked house. */
  function Reported(n: Nearest, address: string): Option<real>
    requires Coherent(n)
  {
    if address in n.links.entries then Some(n.durations[n.links.entries[address]]) else None
  }

  function LinkShared(houses: Houses, link: Linker, acc: Nearest): (r: Result<Nearest, string>)
    requires Coherent(acc)
    ensures r.Failure? <==> exists i :: 0 <= i < |houses| && link(houses[i].1).Failure?
    ensures r.Success? ==> Coherent(r.value)
    decreases |houses|
  {
    if |houses| == 0 then Success(acc)
    else
      assert forall i :: 1 <= i < |houses| ==> houses[1..][i - 1] == houses[i];
      match link(houses[0].1)
      case Failure(e) => Failure(e)
      case Success(None) => LinkShared(houses[1..], link, acc)
      case Success(Some(l)) =>
        LinkShared(houses[1..], link,
          Nearest(Put(acc.links, houses[0].0, l.site), acc.durations[l.site := l.duration]))
  }

  /** The entries of a table in key order. */
  function Items(t: Sites): (r: seq<(string, Site)>)
    ensures |r| == |t.keys|
    ensures forall i :: 0 <= i < |r| ==> r[i].0 == t.keys[i] && r[i].0 in t.entries && r[i].1 == t.entries[r[i].0]
  {
    seq(|t.keys|, i requires 0 <= i < |t.keys| => (t.keys[i], t.entries[t.keys[i]]))
  }

  /** `link_to_nearest_dumpster` with each house keeping its own duration (see
      `LinkOwn`): the houses in order. The site errors surface in the first house's
      search, so they abort the run only when there is a house. */
  function LinkToNearest(houses: Houses, sites: Sites, table: TableService): (r: Result<Table<string, Link>, string>)
    ensures |houses| == 0 ==> r == Success(Empty())
    ensures |houses| > 0 && LocateAll(Items(sites)).Failure? ==> r.Failure?
    ensures |houses| > 0 && LocateAll(Items(sites)).Success? ==>
      var located := LocateAll(Items(sites)).value;
      r.Failure? <==> exists i :: 0 <= i < |houses| && LinkHouse(houses[i].1, located, table).Failure?
    ensures r.Success? ==> forall a :: a in r.value.entries ==>
      exists i :: 0 <= i < |houses| && houses[i].0 == a && LinkHouse(houses[i].1, LocateAll(Items(sites)).value, table) != Success(None)
  {
    if |houses| == 0 then Success(Empty())
    else
      match LocateAll(Items(sites))
      case Failure(e) => Failure(e)
      case Success(located) => LinkOwn(houses, p => LinkHouse(p, located, table), Empty())
  }

  /** When two houses are linked to the same site, the first reports the second's
      duration. */
  lemma LastDurationWins(a: string, p: Point, b: string, q: Point, link: Linker, site: string, d1: real, d2: real)
    requires a != b
    requires link(p) == Success(Some(Link(site, d1)))
    requires link(q) == Success(Some(Link(site, d2)))
    ensures LinkShared([(a, p), (b, q)], link, Nearest(Empty(), map[])).Success?
    ensures Reported(LinkShared([(a, p), (b, q)], link, Nearest(Empty(), map[])).value, a) == Some(d2)
  {
    var houses := [(a, p), (b, q)];
    var n1 := Nearest(Put(Empty(), a, site), map[site := d1]);
    var n2 := Nearest(Put(n1.links, b, site), n1.durations[site := d2]);
    assert houses[1..] == [(b, q)];
    assert [(b, q)][1..] == [];
    assert LinkShared(houses, link, Nearest(Empty(), map[])) == LinkShared([(b, q)], link, n1);
    assert LinkShared([(b, q)], link, n1) == LinkShared([], link, n2);
  }

  /** Three sites at one spot, and a `table` service whose first duration grows with
      the house's latitude. */
  const Spot: Point := Point(0.0, 0.0)
  const Trio: Located := [("s", Some(Spot)), ("t", Some(Spot)), ("u", Some(Spot))]
  const Timing: TableService :=
    (h: Point, ps: seq<Point>) => TableReply("Ok", Some([[60.0 + h.latitude * 30000.0, 100.0, 100.0]]))

  const TrioLinker: Linker := p => LinkHouse(p, Trio, Timing)

  lemma TrioCandidates(house: Point)
    requires house == Point(0.0, 0.0) || house == Point(0.001, 0.0)
    ensures Candidates(house, Trio) == [("s", Spot), ("t", Spot), ("u", Spot)]
  {
    var cs := [("s", Spot), ("t", Spot), ("u", Spot)];
    var t := Thresholds[0];
    assert Within(Spot, house, t);
    assert Trio[1..][1..][1..] == [];
    assert Window(house, Trio[1..][1..], t) == cs[2..];
    assert Window(house, Trio[1..], t) == cs[1..];
    assert Window(house, Trio, t) == cs;
    assert Accumulated(house, Trio, 1) == cs;
  }

  lemma TrioLink(house: Point, d: real)
    requires house == Point(0.0, 0.0) || house == Point(0.001, 0.0)
    requires d == 60.0 + house.latitude * 30000.0
    ensures LinkHouse(house, Trio, Timing) == Success(Some(Link("s", d)))
  {
    TrioCandidates(house);
    FirstMinUnique([d, 100.0, 100.0], 0);
  }

  /** Houses "a" and "b" both get site "s", at 60 and 90 seconds; "a" reports 90. */
  lemma SharedDurationOverwritten()
    ensures var n := LinkShared([("a", Point(0.0, 0.0)), ("b", Point(0.001, 0.0))], TrioLinker, Nearest(Empty(), map[]));
      && TrioLinker(Point(0.0, 0.0)) == Success(Some(Link("s", 60.0)))
      && n.Success? && Reported(n.value, "a") == Some(90.0)
  {
    TrioLink(Point(0.0, 0.0), 60.0);
    TrioLink(Point(0.001, 0.0), 90.0);
    LastDurationWins("a", Point(0.0, 0.0), "b", Point(0.001, 0.0), TrioLinker, "s", 60.0, 90.0);
  }

  /** The evidently intended result: each linked house keeps its own site and
      duration. */
  function LinkOwn(houses: Houses, link: Linker, acc: Table<string, Link>): (r: Result<Table<string, Link>, string>)
    ensures r.Failure? <==> exists i :: 0 <= i < |houses| && link(houses[i].1).Failure?
    ensures r.Success? ==> forall a :: a in r.value.entries ==>
      || a in acc.entries
      || exists i :: 0 <= i < |houses| && houses[i].0 == a && link(houses[i].1).Success? && link(houses[i].1).value.Some?
    decreases |houses|
  {
    if |houses| == 0 then Success(acc)
    else
      assert forall i :: 1 <= i < |houses| ==> houses[1..][i - 1] == houses[i];
      match link(houses[0].1)
      case Failure(e) => Failure(e)
      case Success(None) => LinkOwn(houses[1..], link, acc)
      case Success(Some(l)) => LinkOwn(houses[1..], link, Put(acc, houses[0].0, l))
  }

  /** An address no later house has keeps its link. */
  lemma {:induction false} OwnKept(houses: Houses, link: Linker, acc: Table<string, Link>, a: string)
    requires LinkOwn(houses, link, acc).Success?
    requires a in acc.entries
    requires forall j :: 0 <= j < |houses| ==> houses[j].0 != a
    ensures a in LinkOwn(houses, link, acc).value.entries
    ensures LinkOwn(houses, link, acc).value.entries[a] == acc.entries[a]
    decreases |houses|
  {
    if |houses| > 0 {
      var tail := houses[1..];
      assert forall j :: 0 <= j < |tail| ==> tail[j] == houses[j + 1];
      match link(houses[0].1)
      case Success(None) => OwnKept(tail, link, acc, a);
      case Success(Some(l)) => OwnKept(tail, link, Put(acc, houses[0].0, l), a);
    }
  }

  /** Each linked house reports its own site and duration (for an address given
      once, as the keys of the geocoded table are). */
  lemma {:induction false} OwnLinkReported(houses: Houses, link: Linker, acc: Table<string, Link>, i: nat)
    requires LinkOwn(houses, link, acc).Success?
    requires i < |houses|
    requires forall j :: i < j < |houses| ==> houses[j].0 != houses[i].0
    requires link(houses[i].1).value.Some?
    ensures houses[i].0 in LinkOwn(houses, link, acc).value.entries
    ensures LinkOwn(houses, link, acc).value.entries[houses[i].0] == link(houses[i].1).value.value
    decreases |houses|
  {
    var tail := houses[1..];
    assert forall j :: 0 <= j < |tail| ==> tail[j] == houses[j + 1];
    match link(houses[0].1)
    case Success(None) =>
      OwnLinkReported(tail, link, acc, i - 1);
    case Success(Some(l)) =>
      if i == 0 {
        OwnKept(tail, link, Put(acc, houses[0].0, l), houses[0].0);
      } else {
        OwnLinkReported(tail, link, Put(acc, houses[0].0, l), i - 1);
      }
  }
}

=== FILE: numerics.dfy ===
/** Python's numeric built-ins the simulation uses, on exact reals: `round(x)` (which
    rounds half to even) and `math.isclose` with an absolute tolerance. */
module Numerics {

  function Abs(x: real): real {
    if x < 0.0 then -x else x
  }

  function Max(a: real, b: real): real {
    if a < b then b else a
  }

  /** `round(x)` with no digits argument: the nearest integer, ties to the even one. */
  function RoundHalfEven(x: real): (r: int)
    ensures Abs(r as real - x) <= 0.5
    ensures Abs(r as real - x) == 0.5 ==> r % 2 == 0
  {
    var f := x.Floor;
    var frac := x - f as real;
    if frac < 0.5 then f
    else if frac > 0.5 then f + 1
    else if f % 2 == 0 then f
    else f + 1
  }

  /** Rounding returns the only integer strictly closer than one half, when there is one. */
  lemma RoundNearest(x: real, n: int)
    requires Abs(n as real - x) < 0.5
    ensures RoundHalfEven(x) == n
  {
    var r := RoundHalfEven(x);
    assert Abs(r as real - n as real) < 1.0;
  }

  /** Rounding an integer gives it back. */
  lemma RoundInteger(n: int)
    ensures RoundHalfEven(n as real) == n
  {
    RoundNearest(n as real, n);
  }

  const RelTol: real := 0.000000001
  const AbsTol: real := 0.0001

  /** `math.isclose(a, b, abs_tol=1e-4)` (with the default relative tolerance 1e-9). */
  predicate IsClose(a: real, b: real) {
    Abs(a - b) <= Max(RelTol * Max(Abs(a), Abs(b)), AbsTol)
  }

  /** Values within the absolute tolerance are close; for coordinates (magnitude at
      most 100000) closeness is exactly being within the absolute tolerance. */
  lemma IsCloseCoordinates(a: real, b: real)
    ensures Abs(a - b) <= AbsTol ==> IsClose(a, b)
    ensures Abs(a) <= 100000.0 && Abs(b) <= 100000.0 ==> (IsClose(a, b) <==> Abs(a - b) <= AbsTol)
    ensures IsClose(a, b) == IsClose(b, a)
  {
  }
}

=== FILE: resources.dfy ===
/** The passive resources the agents share: container sites ("dumpsters") and
    collection orders. Only the fields and effects the agents use are modelled. */
module Resources {

  import opened Wrappers

  type DumpsterId = string
  type OrderId = string
  type VehicleId = string

  /** A geographic position in degrees. */
  datatype Point = Point(latitude: real, longitude: real)

  type Capacity = c: int | c > 0 witness 1

  /** A container site: where it is, how much it holds, how much it currently holds,
      and the order it has been put into, if any. */
  datatype Dumpster = Dumpster(
    uid: DumpsterId,
    location: Point,
    capacity: Capacity,
    count: int,
    value: int,
    orderUid: Option<OrderId>)

  /** The site's fill fraction. */
  function PercentLevel(d: Dumpster): real {
    d.value as real / d.capacity as real
  }

  /** `set_order`: the site is now part of an order. */
  function SetOrder(d: Dumpster, order: OrderId): Dumpster {
    d.(orderUid := Some(order))
  }

  /** `clear`: the site has been emptied by a vehicle and leaves its order. */
  function Clear(d: Dumpster): Dumpster {
    d.(value := 0, orderUid := None)
  }

  /** A collection order: the sites captured when it was created (in the order the
      dispatcher met them), where the load goes, and the vehicle that took it. */
  datatype Order = Order(
    uid: OrderId,
    dumpsters: seq<DumpsterId>,
    target: Point,
    vehicleUid: Option<VehicleId>)

  /** `set_vehicle`: the order is now taken by a vehicle. */
  function SetVehicle(o: Order, vehicle: VehicleId): Order {
    o.(vehicleUid := Some(vehicle))
  }
}

=== FILE: simulation.dfy ===
/** The city: the simulation environment that owns the sites, the dispatchers and the
    append-only logs of state samples, one log per kind of entity. */
module Simulation {

  import opened Wrappers
  import opened Tables
  import opened Resources
  import Dispatching

  /** A state snapshot, tagged by the kind of entity it describes. */
  datatype Sample =
    | VehicleSample(
        timestamp: int, uid: VehicleId, latitude: real, longitude: real,
        velocity: int, direction: int, number: string, owner: string,
        capacity: int, value: int, percentLevel: real)
    | DispatcherSample(timestamp: int, uid: string)
    | DumpsterSample(
        timestamp: int, uid: DumpsterId, latitude: real, longitude: real,
        capacity: int, value: int, percentLevel: real)
    | HouseSample(timestamp: int, uid: string)

  /** The four sample logs; samples are only ever appended. */
  datatype Recorder = Recorder(
    vehicleStates: seq<Sample>,
    dispatcherStates: seq<Sample>,
    houseStates: seq<Sample>,
    dumpsterStates: seq<Sample>)

  const EmptyRecorder := Recorder([], [], [], [])

  function SetHouseState(r: Recorder, s: Sample): Recorder {
    r.(houseStates := r.houseStates + [s])
  }

  function SetDumpsterState(r: Recorder, s: Sample): Recorder {
    r.(dumpsterStates := r.dumpsterStates + [s])
  }

  function SetVehicleState(r: Recorder, s: Sample): Recorder {
    r.(vehicleStates := r.vehicleStates + [s])
  }

  /** `set_dispatcher_state` appends to the vehicle log, not to the dispatcher log. */
  function SetDispatcherState(r: Recorder, s: Sample): (r': Recorder)
    ensures r'.dispatcherStates == r.dispatcherStates
    ensures r'.vehicleStates == r.vehicleStates + [s]
    ensures r'.houseStates == r.houseStates && r'.dumpsterStates == r.dumpsterStates
  {
    r.(vehicleStates := r.vehicleStates + [s])
  }

  /** The `*_states` queries: the filter arguments are accepted and ignored, so each
      yields its whole log in insertion order. */
  function HouseStates(r: Recorder, uid: Option<string>, after: Option<int>, before: Option<int>): seq<Sample> {
    r.houseStates
  }

  function DumpsterStates(r: Recorder, uid: Option<string>, after: Option<int>, before: Option<int>): seq<Sample> {
    r.dumpsterStates
  }

  function DispatcherStates(r: Recorder, uid: Option<string>, after: Option<int>, before: Option<int>): seq<Sample> {
    r.dispatcherStates
  }

  function VehicleStates(r: Recorder, uid: Option<string>, after: Option<int>, before: Option<int>): seq<Sample> {
    r.vehicleStates
  }

  /** One call of a `set_*_state` method. */
  datatype Record =
    | RecordHouse(sample: Sample)
    | RecordDumpster(sample: Sample)
    | RecordDispatcher(sample: Sample)
    | RecordVehicle(sample: Sample)

  function Apply(r: Recorder, op: Record): Recorder {
    match op
    case RecordHouse(s) => SetHouseState(r, s)
    case RecordDumpster(s) => SetDumpsterState(r, s)
    case RecordDispatcher(s) => SetDispatcherState(r, s)
    case RecordVehicle(s) => SetVehicleState(r, s)
  }

  /** The recorder after a run of calls, starting from the empty one. */
  function Replay(ops: seq<Record>): Recorder
    decreases |ops|
  {
    if |ops| == 0 then EmptyRecorder else Apply(Replay(ops[..|ops| - 1]), ops[|ops| - 1])
  }

  /** The samples written by the calls that land in the vehicle log, in call order. */
  function VehicleLogged(ops: seq<Record>): seq<Sample>
    decreases |ops|
  {
    if |ops| == 0 then []
    else
      var op := ops[|ops| - 1];
      VehicleLogged(ops[..|ops| - 1]) + if op.RecordVehicle? || op.RecordDispatcher? then [op.sample] else []
  }

  function Logged(ops: seq<Record>, house: bool): seq<Sample>
    decreases |ops|
  {
    if |ops| == 0 then []
    else
      var op := ops[|ops| - 1];
      Logged(ops[..|ops| - 1], house) + if (house && op.RecordHouse?) || (!house && op.RecordDumpster?) then [op.sample] else []
  }

  /** Whatever is recorded, every query yields, whatever its filters, exactly the
      samples appended to its log in call order; dispatcher samples land in the
      vehicle log and the dispatcher log stays empty. */
  lemma {:induction false} ReplayLogs(ops: seq<Record>, uid: Option<string>, after: Option<int>, before: Option<int>)
    ensures VehicleStates(Replay(ops), uid, after, before) == VehicleLogged(ops)
    ensures HouseStates(Replay(ops), uid, after, before) == Logged(ops, true)
    ensures DumpsterStates(Replay(ops), uid, after, before) == Logged(ops, false)
    ensures DispatcherStates(Replay(ops), uid, after, before) == []
    decreases |ops|
  {
    if |ops| > 0 {
      ReplayLogs(ops[..|ops| - 1], uid, after, before);
    }
  }

  // ---------------------------------------------------------------------------
  // The city

  type Dumpsters = Dispatching.Dumpsters

  datatype City = City(
    now: int,
    dispatchers: seq<Dispatching.Dispatcher>,
    dumpsters: Dumpsters,
    log: Recorder)

  /** `add_dumpster`: the site is stored under its uid, replacing an earlier one with
      the same uid. A new site starts empty and in no order. */
  function AddDumpster(c: City, uid: DumpsterId, latitude: real, longitude: real, capacity: Capacity, count: int): City {
    c.(dumpsters := Put(c.dumpsters, uid, Dumpster(uid, Point(latitude, longitude), capacity, count, 0, None)))
  }

  /** `get_dumpster`: the site stored under the uid; `None` stands for the KeyError of
      an unknown uid. */
  function GetDumpster(c: City, uid: DumpsterId): Option<Dumpster> {
    Get(c.dumpsters, uid)
  }

  /** Adding a site and looking it up gives it back; every other site is as before. */
  lemma AddThenGet(c: City, uid: DumpsterId, latitude: real, longitude: real, capacity: Capacity, count: int, other: DumpsterId)
    ensures GetDumpster(AddDumpster(c, uid, latitude, longitude, capacity, count), uid)
         == Some(Dumpster(uid, Point(latitude, longitude), capacity, count, 0, None))
    ensures other != uid ==> GetDumpster(AddDumpster(c, uid, latitude, longitude, capacity, count), other) == GetDumpster(c, other)
  {
  }

  /** Total of the values of the sites listed in `keys`. */
  function SumValues(keys: seq<DumpsterId>, entries: map<DumpsterId, Dumpster>): int
    requires forall i :: 0 <= i < |keys| ==> keys[i] in entries
    decreases |keys|
  {
    if |keys| == 0 then 0 else entries[keys[0]].value + SumValues(keys[1..], entries)
  }

  /** `status`: the total load of all sites. The values are integers, so rounding the
      total to one decimal leaves it unchanged. */
  function Status(c: City): int {
    SumValues(c.dumpsters.keys, c.dumpsters.entries)
  }

  /** Changing the value of one listed site changes the total by the difference. */
  lemma {:induction false} SumValuesUpdate(keys: seq<DumpsterId>, entries: map<DumpsterId, Dumpster>, k: DumpsterId, d: Dumpster)
    requires forall i :: 0 <= i < |keys| ==> keys[i] in entries
    requires forall i, j :: 0 <= i < j < |keys| ==> keys[i] != keys[j]
    requires k in entries
    ensures SumValues(keys, entries[k := d]) ==
      SumValues(keys, entries) + (if k in keys then d.value - entries[k].value else 0)
    decreases |keys|
  {
    if |keys| > 0 {
      SumValuesUpdate(keys[1..], entries, k, d);
      if keys[0] == k {
        assert k !in keys[1..];
      }
    }
  }

  /** A site added under a new uid starts empty, so the total is unchanged; emptying a
      site lowers the total by exactly what it held. */
  lemma StatusAfterChanges(c: City, uid: DumpsterId, latitude: real, longitude: real, capacity: Capacity, count: int, k: DumpsterId)
    ensures uid !in c.dumpsters.entries ==> Status(AddDumpster(c, uid, latitude, longitude, capacity, count)) == Status(c)
    ensures k in c.dumpsters.entries ==>
      Status(c.(dumpsters := Update(c.dumpsters, map[k := Clear(c.dumpsters.entries[k])]))) == Status(c) - c.dumpsters.entries[k].value
  {
    if uid !in c.dumpsters.entries {
      var d := Dumpster(uid, Point(latitude, longitude), capacity, count, 0, None);
      SumAppend(c.dumpsters.keys, c.dumpsters.entries, uid, d);
    }
    if k in c.dumpsters.entries {
      SumValuesUpdate(c.dumpsters.keys, c.dumpsters.entries, k, Clear(c.dumpsters.entries[k]));
      assert c.dumpsters.entries + map[k := Clear(c.dumpsters.entries[k])]
          == c.dumpsters.entries[k := Clear(c.dumpsters.entries[k])];
    }
  }

  lemma {:induction false} SumAppend(keys: seq<DumpsterId>, entries: map<DumpsterId, Dumpster>, k: DumpsterId, d: Dumpster)
    requires forall i :: 0 <= i < |keys| ==> keys[i] in entries
    requires k !in entries
    ensures SumValues(keys + [k], entries[k := d]) == SumValues(keys, entries) + d.value
    decreases |keys|
  {
    if |keys| == 0 {
      assert keys + [k] == [k];
    } else {
      assert (keys + [k])[1..] == keys[1..] + [k];
      SumAppend(keys[1..], entries, k, d);
      SumUnchanged(keys[1..], entries, k, d);
    }
  }

  lemma {:induction false} SumUnchanged(keys: seq<DumpsterId>, entries: map<DumpsterId, Dumpster>, k: DumpsterId, d: Dumpster)
    requires forall i :: 0 <= i < |keys| ==> keys[i] in entries
    requires k !in entries
    ensures SumValues(keys, entries[k := d]) == SumValues(keys, entries)
    decreases |keys|
  {
    if |keys| > 0 {
      SumUnchanged(keys[1..], entries, k, d);
    }
  }

  // ---------------------------------------------------------------------------
  // Consistency of sites and orders

  /** Every order of every dispatcher lists only known sites, and every site that
      carries an order uid is listed by an order with that uid. */
  ghost predicate Consistent(c: City) {
    && (forall i, k :: 0 <= i < |c.dispatchers| && k in c.dispatchers[i].orders.entries ==>
          forall u :: u in c.dispatchers[i].orders.entries[k].dumpsters ==> u in c.dumpsters.entries)
    && (forall u :: u in c.dumpsters.entries && c.dumpsters.entries[u].orderUid.Some? ==>
          Backed(c, u, c.dumpsters.entries[u].orderUid.value))
  }

  ghost predicate Backed(c: City, u: DumpsterId, o: OrderId) {
    exists i :: 0 <= i < |c.dispatchers| && o in c.dispatchers[i].orders.entries
      && u in c.dispatchers[i].orders.entries[o].dumpsters
  }

  /** A uid no dispatcher has used yet. */
  ghost predicate Unused(c: City, uid: OrderId) {
    forall i :: 0 <= i < |c.dispatchers| ==> uid !in c.dispatchers[i].orders.entries
  }

  /** One resumption of dispatcher `i` in the city, with a fresh uid at hand. */
  function DispatcherStep(c: City, i: nat, newUid: OrderId): (r: (City, int))
    requires i < |c.dispatchers|
    ensures r.1 == c.dispatchers[i].timeout
    ensures r.0.now == c.now && r.0.log == c.log && |r.0.dispatchers| == |c.dispatchers|
    ensures forall j :: 0 <= j < |c.dispatchers| && j != i ==> r.0.dispatchers[j] == c.dispatchers[j]
    ensures Consistent(c) && Unused(c, newUid) ==> Consistent(r.0)
  {
    var (d', ds', _) := Dispatching.Resume(c.dispatchers[i], c.dumpsters, newUid);
    var c' := c.(dispatchers := c.dispatchers[i := d'], dumpsters := ds');
    DispatcherStepConsistent(c, i, newUid, c');
    (c', c.dispatchers[i].timeout)
  }

  lemma DispatcherStepConsistent(c: City, i: nat, newUid: OrderId, c': City)
    requires i < |c.dispatchers|
    requires var (d', ds', _) := Dispatching.Resume(c.dispatchers[i], c.dumpsters, newUid);
      c' == c.(dispatchers := c.dispatchers[i := d'], dumpsters := ds')
    ensures Consistent(c) && Unused(c, newUid) ==> Consistent(c')
  {
    if Consistent(c) && Unused(c, newUid) {
      var d := c.dispatchers[i];
      var (d', ds', _) := Dispatching.Resume(d, c.dumpsters, newUid);
      assert ds'.entries.Keys == c.dumpsters.entries.Keys;
      forall j, k | 0 <= j < |c'.dispatchers| && k in c'.dispatchers[j].orders.entries
        ensures forall u :: u in c'.dispatchers[j].orders.entries[k].dumpsters ==> u in c'.dumpsters.entries
      {
        if j != i || k in d.orders.entries {
          if j == i {
            assert k != newUid;
            assert c'.dispatchers[j].orders.entries[k] == d.orders.entries[k];
          }
        }
      }
      forall u | u in c'.dumpsters.entries && c'.dumpsters.entries[u].orderUid.Some?
        ensures Backed(c', u, c'.dumpsters.entries[u].orderUid.value)
      {
        var o := c'.dumpsters.entries[u].orderUid.value;
        if c'.dumpsters.entries[u] == c.dumpsters.entries[u] {
          assert Backed(c, u, o);
          var j :| 0 <= j < |c.dispatchers| && o in c.dispatchers[j].orders.entries
            && u in c.dispatchers[j].orders.entries[o].dumpsters;
          if j == i {
            assert o != newUid;
            assert c'.dispatchers[j].orders.entries[o] == d.orders.entries[o];
          }
          assert o in c'.dispatchers[j].orders.entries && u in c'.dispatchers[j].orders.entries[o].dumpsters;
        } else {
          assert o == newUid;
          assert c'.dispatchers[i].orders.entries[newUid].dumpsters == Dispatching.Collect(c.dumpsters);
          assert o in c'.dispatchers[i].orders.entries && u in c'.dispatchers[i].orders.entries[o].dumpsters;
        }
      }
    }
  }
}

=== FILE: tables.dfy ===
/** Python's `dict`: a finite map that also remembers the order in which its keys were
    first inserted, which is the order in which `items()` visits them. */
module Tables {

  import opened Wrappers

  datatype Dict<K(==), V> = Dict(keys: seq<K>, entries: map<K, V>)

  /** The keys listed in insertion order are exactly the map's keys, each once. */
  ghost predicate Valid<K, V>(d: Dict<K, V>) {
    && (forall i, j :: 0 <= i < j < |d.keys| ==> d.keys[i] != d.keys[j])
    && d.entries.Keys == (set k | k in d.keys)
  }

  type Table<K(==), V> = d: Dict<K, V> | Valid(d) witness Dict([], map[])

  function Empty<K(==), V>(): (r: Table<K, V>)
    ensures |r.keys| == 0 && r.entries == map[]
  {
    Dict([], map[])
  }

  /** `d[k] = v`: a new key goes to the end of the order, an existing key keeps its place. */
  function Put<K(==), V>(d: Table<K, V>, k: K, v: V): (r: Table<K, V>)
    ensures r.entries == d.entries[k := v]
    ensures k in d.entries ==> r.keys == d.keys
    ensures k !in d.entries ==> r.keys == d.keys + [k]
  {
    if k in d.entries then Dict(d.keys, d.entries[k := v])
    else
      var r := Dict(d.keys + [k], d.entries[k := v]);
      assert forall i :: 0 <= i < |d.keys| ==> r.keys[i] == d.keys[i];
      r
  }

  /** `d.get(k)` */
  function Get<K(==), V>(d: Table<K, V>, k: K): (r: Option<V>)
    ensures r.Some? <==> k in d.entries
    ensures r.Some? ==> r.value == d.entries[k]
  {
    if k in d.entries then Some(d.entries[k]) else None
  }

  /** Replacing the values of some keys keeps the keys and their order. */
  function Update<K(==), V>(d: Table<K, V>, changed: map<K, V>): (r: Table<K, V>)
    requires changed.Keys <= d.entries.Keys
    ensures r.keys == d.keys
    ensures r.entries.Keys == d.entries.Keys
    ensures forall k :: k in changed ==> r.entries[k] == changed[k]
    ensures forall k :: k in d.entries && k !in changed ==> r.entries[k] == d.entries[k]
  {
    Dict(d.keys, d.entries + changed)
  }

  /** Position of the first pair with key `k`. */
  function FirstIndex<K(==), V>(kvs: seq<(K, V)>, k: K): (i: nat)
    requires exists j :: 0 <= j < |kvs| && kvs[j].0 == k
    ensures i < |kvs| && kvs[i].0 == k
    ensures forall j :: 0 <= j < i ==> kvs[j].0 != k
    decreases |kvs|
  {
    if kvs[0].0 == k then 0
    else
      assert forall j :: 1 <= j < |kvs| ==> kvs[1..][j - 1] == kvs[j];
      FirstIndex(kvs[1..], k) + 1
  }

  /** No later pair has the key of pair `i`: its value is the one stored last. */
  predicate LastOf<K(==), V>(kvs: seq<(K, V)>, i: nat)
    requires i < |kvs|
  {
    forall j :: i < j < |kvs| ==> kvs[j].0 != kvs[i].0
  }

  /** `for k, v in kvs: d[k] = v`: every pair is stored in turn. */
  function PutAll<K(==), V>(d: Table<K, V>, kvs: seq<(K, V)>): Table<K, V>
    decreases |kvs|
  {
    if |kvs| == 0 then d else PutAll(Put(d, kvs[0].0, kvs[0].1), kvs[1..])
  }

  /** The keys are the old ones and those of the pairs, and each value is an old one or
      a pair's. */
  lemma {:induction false} PutAllKeys<K(!new), V>(d: Table<K, V>, kvs: seq<(K, V)>)
    ensures var r := PutAll(d, kvs);
      && (forall k :: k in r.entries <==> k in d.entries || exists i :: 0 <= i < |kvs| && kvs[i].0 == k)
      && forall k :: k in r.entries ==>
           (k in d.entries && r.entries[k] == d.entries[k]) || exists i :: 0 <= i < |kvs| && kvs[i] == (k, r.entries[k])
    decreases |kvs|
  {
    if |kvs| > 0 {
      var tail := kvs[1..];
      var d' := Put(d, kvs[0].0, kvs[0].1);
      var r := PutAll(d', tail);
      PutAllKeys(d', tail);
      forall k | k in r.entries
        ensures (k in d.entries && r.entries[k] == d.entries[k]) || exists i :: 0 <= i < |kvs| && kvs[i] == (k, r.entries[k])
      {
        if k !in d'.entries || r.entries[k] != d'.entries[k] {
          var i :| 0 <= i < |tail| && tail[i] == (k, r.entries[k]);
          assert kvs[i + 1] == tail[i];
        } else if k == kvs[0].0 {
          assert kvs[0] == (k, r.entries[k]);
        }
      }
      forall k | k in d.entries || exists i :: 0 <= i < |kvs| && kvs[i].0 == k
        ensures k in r.entries
      {
        if k !in d.entries && k != kvs[0].0 {
          var i :| 0 <= i < |kvs| && kvs[i].0 == k;
          assert tail[i - 1].0 == k;
        }
      }
      forall k | k in r.entries && k !in d.entries
        ensures exists i :: 0 <= i < |kvs| && kvs[i].0 == k
      {
        if k != kvs[0].0 {
          var i :| 0 <= i < |tail| && tail[i].0 == k;
          assert kvs[i + 1].0 == k;
        }
      }
    }
  }

  /** The last pair of a key gives its value. */
  lemma {:induction false} PutAllLast<K(!new), V>(d: Table<K, V>, kvs: seq<(K, V)>, i: nat)
    requires i < |kvs| && LastOf(kvs, i)
    ensures kvs[i].0 in PutAll(d, kvs).entries && PutAll(d, kvs).entries[kvs[i].0] == kvs[i].1
    decreases |kvs|
  {
    var tail := kvs[1..];
    assert forall j :: 1 <= j < |kvs| ==> tail[j - 1] == kvs[j];
    if i > 0 {
      assert LastOf(tail, i - 1);
      PutAllLast(Put(d, kvs[0].0, kvs[0].1), tail, i - 1);
    } else {
      PutAllKeeps(Put(d, kvs[0].0, kvs[0].1), tail, kvs[0].0);
    }
  }

  /** A key no pair has keeps its value. */
  lemma {:induction false} PutAllKeeps<K(!new), V>(d: Table<K, V>, kvs: seq<(K, V)>, k: K)
    requires k in d.entries && forall i :: 0 <= i < |kvs| ==> kvs[i].0 != k
    ensures k in PutAll(d, kvs).entries && PutAll(d, kvs).entries[k] == d.entries[k]
    decreases |kvs|
  {
    if |kvs| > 0 {
      var tail := kvs[1..];
      assert forall j :: 1 <= j < |kvs| ==> tail[j - 1] == kvs[j];
      PutAllKeeps(Put(d, kvs[0].0, kvs[0].1), tail, k);
    }
  }

  /** The keys already present keep their places at the front; after them come only
      new keys, each the key of some pair. */
  lemma {:induction false} PutAllPrefix<K(!new), V>(d: Table<K, V>, kvs: seq<(K, V)>)
    ensures var r := PutAll(d, kvs);
      && |d.keys| <= |r.keys| && r.keys[..|d.keys|] == d.keys
      && (forall a :: |d.keys| <= a < |r.keys| ==> r.keys[a] !in d.entries)
      && (forall a :: |d.keys| <= a < |r.keys| ==> exists i :: 0 <= i < |kvs| && kvs[i].0 == r.keys[a])
    decreases |kvs|
  {
    if |kvs| > 0 {
      var k0 := kvs[0].0;
      var tail := kvs[1..];
      var d' := Put(d, k0, kvs[0].1);
      var r := PutAll(d', tail);
      PutAllPrefix(d', tail);
      assert r.keys[..|d.keys|] == r.keys[..|d'.keys|][..|d.keys|];
      forall a | |d.keys| <= a < |r.keys|
        ensures r.keys[a] !in d.entries && exists i :: 0 <= i < |kvs| && kvs[i].0 == r.keys[a]
      {
        if a < |d'.keys| {
          assert r.keys[a] == d'.keys[a] == k0;
        } else {
          var i :| 0 <= i < |tail| && tail[i].0 == r.keys[a];
          assert kvs[i + 1] == tail[i];
        }
      }
    }
  }

  /** The new keys follow in the order of their first pair. */
  lemma {:induction false} PutAllOrder<K(!new), V>(d: Table<K, V>, kvs: seq<(K, V)>)
    ensures var r := PutAll(d, kvs);
      && |d.keys| <= |r.keys|
      && (forall a :: |d.keys| <= a < |r.keys| ==> exists i :: 0 <= i < |kvs| && kvs[i].0 == r.keys[a])
      && forall a, b :: |d.keys| <= a < b < |r.keys| ==> FirstIndex(kvs, r.keys[a]) < FirstIndex(kvs, r.keys[b])
    decreases |kvs|
  {
    PutAllPrefix(d, kvs);
    if |kvs| > 0 {
      var k0 := kvs[0].0;
      var tail := kvs[1..];
      var d' := Put(d, k0, kvs[0].1);
      var r := PutAll(d', tail);
      PutAllOrder(d', tail);
      PutAllPrefix(d', tail);
      forall a | |d'.keys| <= a < |r.keys|
        ensures FirstIndex(kvs, r.keys[a]) == FirstIndex(tail, r.keys[a]) + 1
      {
        assert r.keys[a] != k0;
        FirstIndexTail(kvs, r.keys[a]);
      }
      if k0 !in d.entries {
        assert r.keys[|d.keys|] == d'.keys[|d.keys|] == k0;
        assert FirstIndex(kvs, k0) == 0;
      }
    }
  }

  /** Past a first pair with another key, the first index is one more than in the rest. */
  lemma FirstIndexTail<K, V>(kvs: seq<(K, V)>, k: K)
    requires |kvs| > 0 && kvs[0].0 != k
    requires exists j :: 0 <= j < |kvs| - 1 && kvs[1..][j].0 == k
    ensures exists j :: 0 <= j < |kvs| && kvs[j].0 == k
    ensures FirstIndex(kvs, k) == FirstIndex(kvs[1..], k) + 1
  {
    var j :| 0 <= j < |kvs| - 1 && kvs[1..][j].0 == k;
    assert kvs[j + 1].0 == k;
  }

  /** Storing two runs of pairs is storing their concatenation. */
  lemma {:induction false} PutAllAppend<K(!new), V>(d: Table<K, V>, xs: seq<(K, V)>, ys: seq<(K, V)>)
    ensures PutAll(PutAll(d, xs), ys) == PutAll(d, xs + ys)
    decreases |xs|
  {
    if |xs| > 0 {
      assert (xs + ys)[0] == xs[0];
      assert (xs + ys)[1..] == xs[1..] + ys;
      PutAllAppend(Put(d, xs[0].0, xs[0].1), xs[1..], ys);
    } else {
      assert xs + ys == ys;
    }
  }

  /** Position of a key in the insertion order. */
  lemma KeyIndex<K, V>(d: Table<K, V>, k: K) returns (i: nat)
    requires k in d.entries
    ensures i < |d.keys| && d.keys[i] == k
  {
    assert k in d.keys;
    i :| 0 <= i < |d.keys| && d.keys[i] == k;
  }

  // ---------------------------------------------------------------------------
  // Positions in a sequence

  /** Strictly increasing positions: the elements they pick keep their order. */
  predicate Increasing(idx: seq<nat>) {
    forall a, b :: 0 <= a < b < |idx| ==> idx[a] < idx[b]
  }

  /** The same positions, one further on. */
  function Shift(idx: seq<nat>): (r: seq<nat>)
    ensures |r| == |idx| && forall k :: 0 <= k < |idx| ==> r[k] == idx[k] + 1
  {
    seq(|idx|, k requires 0 <= k < |idx| => idx[k] + 1)
  }

  /** Positions one further on stay increasing, also behind the first position. */
  lemma ShiftIncreasing(idx: seq<nat>)
    requires Increasing(idx)
    ensures Increasing(Shift(idx)) && Increasing([0] + Shift(idx))
  {
    var s := Shift(idx);
    forall a, b | 0 <= a < b < |[0] + s|
      ensures ([0] + s)[a] < ([0] + s)[b]
    {
      assert ([0] + s)[b] == s[b - 1];
      if a > 0 {
        assert ([0] + s)[a] == s[a - 1];
      }
    }
  }
}

=== FILE: text.dfy ===
/** The Python string operations the address normalizer and the site admission rely on
    (`str.strip`, `str.split`, `str.join`, `str.replace`, `str.startswith`, the `in`
    substring test), on `seq<char>`. */
module Text {

  import opened Wrappers

  /** Python's `str.isspace` for one character (the characters `str.strip()` and
      `str.split()` treat as whitespace). */
  predicate IsSpace(c: char) {
    || c == ' ' || c == '\t' || c == '\n' || c == '\r' || c == '\U{000B}' || c == '\U{000C}'
    || ('\U{001C}' <= c <= '\U{001F}') || c == '\U{0085}' || c == '\U{00A0}' || c == '\U{1680}'
    || ('\U{2000}' <= c <= '\U{200A}') || c == '\U{2028}' || c == '\U{2029}' || c == '\U{202F}'
    || c == '\U{205F}' || c == '\U{3000}'
  }

  predicate NoSpace(s: string) {
    forall i :: 0 <= i < |s| ==> !IsSpace(s[i])
  }

  /** `s.startswith(p)` */
  predicate StartsWith(s: string, p: string) {
    |p| <= |s| && s[..|p|] == p
  }

  /** `p` occurs in `s` starting at index `i` */
  predicate OccursAt(s: string, p: string, i: int) {
    0 <= i && i + |p| <= |s| && s[i..i + |p|] == p
  }

  /** `p in s` */
  predicate Contains(s: string, p: string) {
    exists i :: 0 <= i <= |s| - |p| && OccursAt(s, p, i)
  }

  /** `s.lstrip()` */
  function StripLeft(s: string): (r: string)
    ensures |r| <= |s| && r == s[|s| - |r|..]
    ensures |r| > 0 ==> !IsSpace(r[0])
    ensures forall i :: 0 <= i < |s| - |r| ==> IsSpace(s[i])
  {
    if |s| > 0 && IsSpace(s[0]) then StripLeft(s[1..]) else s
  }

  /** `s.rstrip()` */
  function StripRight(s: string): (r: string)
    ensures |r| <= |s| && r == s[..|r|]
    ensures |r| > 0 ==> !IsSpace(r[|r| - 1])
    ensures forall i :: |r| <= i < |s| ==> IsSpace(s[i])
  {
    if |s| > 0 && IsSpace(s[|s| - 1]) then StripRight(s[..|s| - 1]) else s
  }

  /** `s.strip()` */
  function Strip(s: string): (r: string)
    ensures |r| > 0 ==> !IsSpace(r[0]) && !IsSpace(r[|r| - 1])
  {
    StripLeft(StripRight(s))
  }

  /** `s.split(sep)` for a non-empty separator: the pieces between the leftmost
      non-overlapping occurrences of `sep`. */
  function Split(s: string, sep: string): (r: seq<string>)
    requires |sep| > 0
    ensures |r| >= 1
    decreases |s|
  {
    if |s| == 0 then [""]
    else if StartsWith(s, sep) then [""] + Split(s[|sep|..], sep)
    else
      var rest := Split(s[1..], sep);
      [[s[0]] + rest[0]] + rest[1..]
  }

  /** `sep.join(xs)` */
  function Join(xs: seq<string>, sep: string): string
  {
    if |xs| == 0 then ""
    else if |xs| == 1 then xs[0]
    else xs[0] + sep + Join(xs[1..], sep)
  }

  /** `s.replace(p, r)` for a non-empty pattern: every leftmost non-overlapping
      occurrence of `p` is replaced by `r`. */
  function ReplaceAll(s: string, p: string, r: string): string
    requires |p| > 0
    decreases |s|
  {
    if |s| < |p| then s
    else if s[..|p|] == p then r + ReplaceAll(s[|p|..], p, r)
    else [s[0]] + ReplaceAll(s[1..], p, r)
  }

  /** Index of the last whitespace character of `s`, or -1 when there is none. */
  function LastSpace(s: string): (k: int)
    ensures -1 <= k < |s|
    ensures k >= 0 ==> IsSpace(s[k])
    ensures forall i :: k < i < |s| ==> !IsSpace(s[i])
  {
    if |s| == 0 then -1
    else if IsSpace(s[|s| - 1]) then |s| - 1
    else LastSpace(s[..|s| - 1])
  }

  /** `s.split()[-1]`: the last maximal run of non-whitespace characters. Python
      raises IndexError on a blank string; `None` stands for that. */
  function LastWord(s: string): (r: Option<string>)
  {
    var t := StripRight(s);
    if |t| == 0 then None else Some(t[LastSpace(t) + 1..])
  }

  // ---------------------------------------------------------------------------
  // Lemmas

  lemma JoinCons(a: string, x: string, ys: seq<string>, sep: string)
    ensures Join([a + x] + ys, sep) == a + Join([x] + ys, sep)
  {
    if |ys| > 0 {
      assert ([a + x] + ys)[1..] == ys;
      assert ([x] + ys)[1..] == ys;
    }
  }

  /** Joining the pieces of a split with the same separator gives back the input. */
  lemma {:induction false} JoinSplit(s: string, sep: string)
    requires |sep| > 0
    ensures Join(Split(s, sep), sep) == s
    decreases |s|
  {
    if |s| == 0 {
    } else if StartsWith(s, sep) {
      JoinSplit(s[|sep|..], sep);
      var rest := Split(s[|sep|..], sep);
      assert ([""] + rest)[1..] == rest;
      assert s == sep + s[|sep|..];
    } else {
      JoinSplit(s[1..], sep);
      var rest := Split(s[1..], sep);
      assert [rest[0]] + rest[1..] == rest;
      JoinCons([s[0]], rest[0], rest[1..], sep);
      assert s == [s[0]] + s[1..];
    }
  }

  /** Splitting a word that does not contain the separator's first character gives
      the word. */
  lemma {:induction false} SplitNoSeparator(x: string, sep: string)
    requires |sep| > 0 && sep[0] !in x
    ensures Split(x, sep) == [x]
    decreases |x|
  {
    if |x| > 0 {
      assert x[0] != sep[0];
      assert !StartsWith(x, sep);
      SplitNoSeparator(x[1..], sep);
      assert [x[0]] + x[1..] == x;
    }
  }

  /** Splitting `x + sep + rest`, where `x` lacks the separator's first character,
      peels off `x`. */
  lemma {:induction false} SplitFirstPiece(x: string, sep: string, rest: string)
    requires |sep| > 0 && sep[0] !in x
    ensures Split(x + sep + rest, sep) == [x] + Split(rest, sep)
    decreases |x|
  {
    var s := x + sep + rest;
    if |x| == 0 {
      assert s == sep + rest;
      assert StartsWith(s, sep) by {
        assert s[..|sep|] == sep;
      }
      assert s[|sep|..] == rest;
    } else {
      assert s[0] == x[0] && x[0] != sep[0];
      assert !StartsWith(s, sep);
      assert s[1..] == x[1..] + sep + rest;
      SplitFirstPiece(x[1..], sep, rest);
      assert [x[0]] + x[1..] == x;
    }
  }

  /** Splitting a join gives back the pieces when no piece contains the separator's
      first character. */
  lemma {:induction false} SplitJoin(xs: seq<string>, sep: string)
    requires |xs| >= 1 && |sep| > 0
    requires forall i :: 0 <= i < |xs| ==> sep[0] !in xs[i]
    ensures Split(Join(xs, sep), sep) == xs
    decreases |xs|
  {
    if |xs| == 1 {
      SplitNoSeparator(xs[0], sep);
    } else {
      SplitFirstPiece(xs[0], sep, Join(xs[1..], sep));
      SplitJoin(xs[1..], sep);
      assert [xs[0]] + xs[1..] == xs;
    }
  }

  /** Replacing a pattern that does not occur leaves the string as it is. */
  lemma {:induction false} ReplaceAbsent(s: string, p: string, r: string)
    requires |p| > 0
    requires !Contains(s, p)
    ensures ReplaceAll(s, p, r) == s
    decreases |s|
  {
    if |s| >= |p| {
      assert !OccursAt(s, p, 0);
      assert s[..|p|] != p;
      assert !Contains(s[1..], p) by {
        forall i | 0 <= i <= |s[1..]| - |p|
          ensures !OccursAt(s[1..], p, i)
        {
          assert !OccursAt(s, p, i + 1);
          assert s[1..][i..i + |p|] == s[i + 1..i + 1 + |p|];
        }
      }
      ReplaceAbsent(s[1..], p, r);
      assert [s[0]] + s[1..] == s;
    }
  }

  /** Removing every occurrence of `p` from `p + v`, where `v` has none, leaves `v`. */
  lemma RemovePrefix(p: string, v: string)
    requires |p| > 0
    requires !Contains(v, p)
    ensures ReplaceAll(p + v, p, "") == v
  {
    var s := p + v;
    assert s[..|p|] == p;
    assert s[|p|..] == v;
    ReplaceAbsent(v, p, "");
  }

  /** Neither of two strings being a prefix of the other, no extension of the first
      starts with the second. */
  lemma NotPrefixOfExtension(a: string, b: string, v: string)
    requires !StartsWith(a, b) && !StartsWith(b, a)
    ensures !StartsWith(a + v, b)
  {
    if |b| <= |a| {
      assert (a + v)[..|b|] == a[..|b|];
    } else if |b| <= |a + v| {
      assert (a + v)[..|b|][..|a|] == a;
    }
  }

  /** A string that starts and ends with a non-space character is its own strip. */
  lemma StripTrimmed(t: string)
    requires |t| > 0 && !IsSpace(t[0]) && !IsSpace(t[|t| - 1])
    ensures Strip(t) == t
  {
  }

  /** Surrounding spaces are removed by `strip`. */
  lemma StripLeadingSpace(t: string)
    requires |t| > 0 && !IsSpace(t[0]) && !IsSpace(t[|t| - 1])
    ensures Strip(" " + t) == t
  {
    var s := " " + t;
    assert StripRight(s) == s;
    assert s[1..] == t;
  }

  /** `LastWord` picks out `w` from `prefix + w + trailing` whenever `w` is a
      non-empty word, `prefix` is empty or ends in a space, and `trailing` is blank. */
  lemma {:induction false} LastWordOf(prefix: string, w: string, trailing: string)
    requires |w| > 0 && NoSpace(w)
    requires |prefix| == 0 || IsSpace(prefix[|prefix| - 1])
    requires forall i :: 0 <= i < |trailing| ==> IsSpace(trailing[i])
    ensures LastWord(prefix + w + trailing) == Some(w)
  {
    var s := prefix + w + trailing;
    StripRightOf(prefix + w, trailing);
    var t := prefix + w;
    assert StripRight(s) == t;
    var k := LastSpace(t);
    assert forall i :: |prefix| <= i < |t| ==> t[i] == w[i - |prefix|];
    if |prefix| > 0 {
      assert t[|prefix| - 1] == prefix[|prefix| - 1];
    }
    assert k == |prefix| - 1;
    assert t[k + 1..] == w;
  }

  lemma {:induction false} StripRightOf(t: string, trailing: string)
    requires |t| > 0 && !IsSpace(t[|t| - 1])
    requires forall i :: 0 <= i < |trailing| ==> IsSpace(trailing[i])
    ensures StripRight(t + trailing) == t
    decreases |trailing|
  {
    if |trailing| == 0 {
      assert t + trailing == t;
    } else {
      var s := t + trailing;
      assert IsSpace(s[|s| - 1]);
      assert s[..|s| - 1] == t + trailing[..|trailing| - 1];
      StripRightOf(t, trailing[..|trailing| - 1]);
    }
  }
}

=== FILE: vehicles.dfy ===
/** The refuse truck. Its process loops forever: take an order from the first
    dispatcher, drive the route through the order's sites loading one site after each
    leg, drive to the landfill and unload; with no order, drive back to the garage;
    then wait a minute. Every resumption of the process is one transition here; the
    routing service and the geometry library are parameters. */
module Vehicles {

  import opened Wrappers
  import opened Tables
  import opened Resources
  import opened Numerics
  import opened Simulation
  import Dispatching

  // ---------------------------------------------------------------------------
  // The routing service (OSRM), as seen by the vehicle

  /** One step of a leg: a path and its duration in seconds. */
  datatype Step = Step(geometry: seq<Point>, duration: real)
  datatype Leg = Leg(steps: seq<Step>)
  datatype Route = Route(legs: seq<Leg>)

  /** The reply's `code`, and its `trips` and `routes` arrays when present. */
  datatype Reply = Reply(code: string, trips: Option<seq<Route>>, routes: Option<seq<Route>>)

  /** The `trip` service (a round through several sites) or the `route` service. */
  datatype Service = TripService | RouteService
  datatype Request = Request(service: Service, waypoints: seq<Point>)

  /** Answers a routing request. */
  type Router = Request -> Reply
  /** Shapely's `interpolate(distance, normalized=True)` on a path. */
  type Interpolator = (seq<Point>, real) -> Point

  /** The legs the vehicle follows: those of `trips[0]` when the reply has `trips`,
      otherwise those of `routes[0]`; `None` is the IndexError or KeyError raised when
      the chosen array is empty or `routes` is missing too. */
  function LegsOf(reply: Reply): (r: Option<seq<Leg>>)
    ensures reply.trips.Some? ==>
      (r.Some? <==> |reply.trips.value| > 0) && (r.Some? ==> r.value == reply.trips.value[0].legs)
    ensures reply.trips.None? ==>
      (r.Some? <==> reply.routes.Some? && |reply.routes.value| > 0)
      && (r.Some? ==> r.value == reply.routes.value[0].legs)
  {
    match reply.trips
    case Some(trips) => if |trips| > 0 then Some(trips[0].legs) else None
    case None =>
      match reply.routes
      case Some(routes) => if |routes| > 0 then Some(routes[0].legs) else None
      case None => None
  }

  // ---------------------------------------------------------------------------
  // The drive, flattened into events

  /** A one-second tick spent at a position, or the end of a leg (where the vehicle
      tries to load a site when it is collecting). */
  datatype Event = Tick(position: Point) | LegEnd

  /** Number of one-second ticks of a step: `int(round(duration * 2))`, and none when
      that is negative. */
  function TickCount(s: Step): nat {
    var n := RoundHalfEven(s.duration * 2.0);
    if n < 0 then 0 else n
  }

  /** The ticks of one step: at tick `n` of `count` the vehicle stands at fraction
      `n / count` of the step's path. */
  function StepTicks(s: Step, interpolate: Interpolator): seq<Event> {
    var count := TickCount(s);
    seq(count, n requires 0 <= n < count => Tick(interpolate(s.geometry, n as real / count as real)))
  }

  function LegTicks(steps: seq<Step>, interpolate: Interpolator): seq<Event>
    decreases |steps|
  {
    if |steps| == 0 then [] else StepTicks(steps[0], interpolate) + LegTicks(steps[1..], interpolate)
  }

  /** The whole drive of `move_to_route`: each leg's ticks followed by its end. */
  function Plan(legs: seq<Leg>, interpolate: Interpolator): seq<Event>
    decreases |legs|
  {
    if |legs| == 0 then [] else LegTicks(legs[0].steps, interpolate) + [LegEnd] + Plan(legs[1..], interpolate)
  }

  function CountLegEnds(plan: seq<Event>): nat
    decreases |plan|
  {
    if |plan| == 0 then 0 else (if plan[0].LegEnd? then 1 else 0) + CountLegEnds(plan[1..])
  }

  function StepsTicks(steps: seq<Step>): nat
    decreases |steps|
  {
    if |steps| == 0 then 0 else TickCount(steps[0]) + StepsTicks(steps[1..])
  }

  function RouteTicks(legs: seq<Leg>): nat
    decreases |legs|
  {
    if |legs| == 0 then 0 else StepsTicks(legs[0].steps) + RouteTicks(legs[1..])
  }

  // ---------------------------------------------------------------------------
  // The vehicle

  /** Which movement of the loop the vehicle is in; the collecting and disposal
      movements carry the order being executed. */
  datatype Movement = Collecting(order: Order) | Disposing(order: Order) | Homing

  /** Where the process is suspended. */
  datatype Pc =
    | Start                                                           // not yet run
    | Driving(movement: Movement, plan: seq<Event>, index: nat)        // on the one-second tick `plan[index]`
    | Loading(order: Order, plan: seq<Event>, index: nat, site: DumpsterId) // on the load of `site` at leg end `plan[index]`
    | Unloading                                                       // on the unload at the landfill
    | Resting                                                         // on the one-minute wait ending each loop

  datatype Vehicle = Vehicle(
    uid: VehicleId,
    number: string,
    owner: string,
    position: Point,
    garage: Point,
    velocity: int,
    direction: int,
    capacity: Capacity,
    value: int,
    order: Option<Order>,
    pc: Pc)

  /** Where every vehicle starts, which is also its garage. */
  const Depot: Point := Point(56.303987, 44.019998)

  const TickSeconds := 1
  const LoadSeconds := 120
  const UnloadSeconds := 1200
  const RestSeconds := 60
  const SnapshotPeriod := 10

  /** A new vehicle, parked at the depot, its process not yet started. */
  function NewVehicle(uid: VehicleId, number: string, owner: string, capacity: Capacity, value: int): Vehicle {
    Vehicle(uid, number, owner, Depot, Depot, 40, 0, capacity, value, None, Start)
  }

  /** The suspension each program point stands for. */
  function Delay(pc: Pc): int {
    match pc
    case Start => 0
    case Driving(_, _, _) => TickSeconds
    case Loading(_, _, _, _) => LoadSeconds
    case Unloading => UnloadSeconds
    case Resting => RestSeconds
  }

  /** The fill fraction reported in a snapshot, capped at one. */
  function PercentLevel(v: Vehicle): (r: real)
    ensures r <= 1.0
    ensures v.value <= v.capacity ==> r == v.value as real / v.capacity as real
    ensures v.value >= v.capacity ==> r == 1.0
    ensures v.value >= 0 ==> r >= 0.0
  {
    var level := v.value as real / v.capacity as real;
    if level < 1.0 then level else 1.0
  }

  /** The vehicle's `state` at time `now`. */
  function State(v: Vehicle, now: int): Sample {
    VehicleSample(now, v.uid, v.position.latitude, v.position.longitude, v.velocity, v.direction,
                  v.number, v.owner, v.capacity, v.value, PercentLevel(v))
  }

  /** Appends the vehicle's state to the vehicle log. */
  function Record(c: City, v: Vehicle): City {
    c.(log := SetVehicleState(c.log, State(v, c.now)))
  }

  /** Every site of the order is a known site. */
  ghost predicate Known(c: City, o: Order) {
    forall u :: u in o.dumpsters ==> u in c.dumpsters.entries
  }

  /** What every resumption relies on: sites and orders are consistent, and the order
      the vehicle holds or executes lists known sites only. */
  ghost predicate Ready(c: City, v: Vehicle) {
    && Consistent(c)
    && (v.order.Some? ==> Known(c, v.order.value))
    && (v.pc.Driving? && v.pc.movement.Collecting? ==> Known(c, v.pc.movement.order))
    && (v.pc.Loading? ==> Known(c, v.pc.order) && v.pc.site in v.pc.order.dumpsters)
  }

  // ---------------------------------------------------------------------------
  // Loading and unloading

  /** `load_dumpster`'s search: the first site of the order, in the order's own order,
      lying within tolerance of the vehicle in both latitude and longitude. */
  function FindSite(ds: Dumpsters, members: seq<DumpsterId>, at: Point): (r: Option<DumpsterId>)
    requires forall u :: u in members ==> u in ds.entries
    ensures r.None? <==> forall u :: u in members ==> !Near(ds.entries[u], at)
    ensures r.Some? ==> exists i :: 0 <= i < |members| && members[i] == r.value && Near(ds.entries[r.value], at)
                                   && forall j :: 0 <= j < i ==> !Near(ds.entries[members[j]], at)
    decreases |members|
  {
    if |members| == 0 then None
    else if Near(ds.entries[members[0]], at) then Some(members[0])
    else
      var r := FindSite(ds, members[1..], at);
      assert forall u :: u in members[1..] ==> u in members;
      if r.Some? then
        var i :| 0 <= i < |members[1..]| && members[1..][i] == r.value && Near(ds.entries[r.value], at)
          && forall j :: 0 <= j < i ==> !Near(ds.entries[members[1..][j]], at);
        assert members[i + 1] == r.value;
        r
      else r
  }

  /** The site's recorded position matches the vehicle's (`math.isclose` with
      `abs_tol=1e-4`, on both coordinates). */
  predicate Near(d: Dumpster, at: Point) {
    IsClose(d.location.latitude, at.latitude) && IsClose(d.location.longitude, at.longitude)
  }

  /** The site is emptied and leaves its order (`clear`), once its load is done. */
  function ClearSite(c: City, u: DumpsterId): (r: City)
    ensures r.now == c.now && r.dispatchers == c.dispatchers && r.log == c.log
    ensures r.dumpsters.keys == c.dumpsters.keys && r.dumpsters.entries.Keys == c.dumpsters.entries.Keys
    ensures u in c.dumpsters.entries ==> r.dumpsters.entries == c.dumpsters.entries[u := Clear(c.dumpsters.entries[u])]
    ensures Consistent(c) ==> Consistent(r)
  {
    if u in c.dumpsters.entries then
      var r := c.(dumpsters := Update(c.dumpsters, map[u := Clear(c.dumpsters.entries[u])]));
      assert r.dumpsters.entries == c.dumpsters.entries[u := Clear(c.dumpsters.entries[u])];
      r
    else c
  }

  // ---------------------------------------------------------------------------
  // Running until the next suspension

  /** How far a movement got before the process had to suspend. */
  datatype Progress =
    | Suspended(city: City, vehicle: Vehicle, delay: int) // waiting, the movement still under way
    | Arrived(city: City, vehicle: Vehicle)               // the route was driven to its end
    | NotMoved(city: City, vehicle: Vehicle)              // the route request failed
    | Crashed(error: string)                              // an exception left the process

  /** The outcome of one resumption: the process waits `delay` seconds, or it died. */
  datatype Transition = Yield(city: City, vehicle: Vehicle, delay: int) | Fault(error: string)

  /** Drives on from event `i` of the plan until the next wait or the end of the plan.
      A tick moves the vehicle and waits a second; a leg end of a collecting movement
      starts loading the first matching site (adding what it holds now to the load),
      or passes on when no site matches. The city is never changed. */
  function Advance(c: City, v: Vehicle, m: Movement, plan: seq<Event>, i: nat): (r: Progress)
    requires m.Collecting? ==> Known(c, m.order)
    ensures r.Suspended? || r.Arrived?
    ensures r.city == c && r.vehicle.order == v.order
    ensures r.Arrived? ==> r.vehicle == v
    ensures r.Suspended? ==> r.delay == Delay(r.vehicle.pc)
    ensures r.Suspended? && r.vehicle.pc.Driving? ==>
      var j := r.vehicle.pc.index;
      && r.vehicle.pc.movement == m && r.vehicle.pc.plan == plan && i <= j < |plan| && plan[j].Tick?
      && r.vehicle == v.(position := plan[j].position, pc := Driving(m, plan, j))
    ensures r.Suspended? && !r.vehicle.pc.Driving? ==> m.Collecting? && r.vehicle.pc.Loading?
    ensures r.Suspended? && r.vehicle.pc.Loading? ==>
      var u := r.vehicle.pc.site;
      && r.vehicle.pc.order == m.order && r.vehicle.pc.plan == plan
      && i <= r.vehicle.pc.index < |plan| && plan[r.vehicle.pc.index].LegEnd?
      && u in m.order.dumpsters && Near(c.dumpsters.entries[u], v.position)
      && r.vehicle == v.(value := v.value + c.dumpsters.entries[u].value, pc := r.vehicle.pc)
      && FindSite(c.dumpsters, m.order.dumpsters, v.position) == Some(u)
    ensures r.Suspended? ==> forall k :: i <= k < r.vehicle.pc.index ==> PassesBy(c, v, m, plan[k])
    ensures r.Arrived? ==> forall k :: i <= k < |plan| ==> PassesBy(c, v, m, plan[k])
    ensures Fits(m, r)
    decreases |plan| - i
  {
    if i >= |plan| then Arrived(c, v)
    else
      match plan[i]
      case Tick(p) => Suspended(c, v.(position := p, pc := Driving(m, plan, i)), TickSeconds)
      case LegEnd =>
        if m.Collecting? then
          match FindSite(c.dumpsters, m.order.dumpsters, v.position)
          case Some(u) =>
            Suspended(c, v.(value := v.value + c.dumpsters.entries[u].value, pc := Loading(m.order, plan, i, u)), LoadSeconds)
          case None => Advance(c, v, m, plan, i + 1)
        else Advance(c, v, m, plan, i + 1)
  }

  /** An event the drive goes past without waiting: a leg end, unless it is one of the
      collecting route and a site of the order lies within tolerance of the vehicle. */
  predicate PassesBy(c: City, v: Vehicle, m: Movement, e: Event)
    requires m.Collecting? ==> Known(c, m.order)
  {
    e.LegEnd? && !(m.Collecting? && FindSite(c.dumpsters, m.order.dumpsters, v.position).Some?)
  }

  /** A suspension at the program point the movement can be in: one of its ticks, or
      a load of its order's site; in either case with that point's own delay. */
  predicate Fits(m: Movement, p: Progress) {
    p.Suspended? ==>
      && p.delay == Delay(p.vehicle.pc)
      && (|| (p.vehicle.pc.Driving? && p.vehicle.pc.movement == m)
          || (p.vehicle.pc.Loading? && m.Collecting? && p.vehicle.pc.order == m.order))
  }

  /** The waypoints of a movement after the vehicle's own position: the order's sites,
      the landfill, or the garage. */
  function Waypoints(c: City, v: Vehicle, m: Movement): seq<Point>
    requires m.Collecting? ==> Known(c, m.order)
  {
    match m
    case Collecting(o) => seq(|o.dumpsters|, k requires 0 <= k < |o.dumpsters| => c.dumpsters.entries[o.dumpsters[k]].location)
    case Disposing(o) => [o.target]
    case Homing => [v.garage]
  }

  function ServiceOf(m: Movement): Service {
    if m.Collecting? then TripService else RouteService
  }

  /** Starts a movement: asks for a route from the vehicle's position, returns at once
      (without moving) unless the reply's code is "Ok", and otherwise drives it. */
  function Move(c: City, v: Vehicle, m: Movement, router: Router, interpolate: Interpolator): (r: Progress)
    requires m.Collecting? ==> Known(c, m.order)
    ensures !r.Crashed? ==> r.city == c && r.vehicle.order == v.order
    ensures router(Request(ServiceOf(m), [v.position] + Waypoints(c, v, m))).code != "Ok" ==> r == NotMoved(c, v)
    ensures Fits(m, r)
    ensures r.Arrived? ==> r.vehicle == v
  {
    var reply := router(Request(ServiceOf(m), [v.position] + Waypoints(c, v, m)));
    if reply.code != "Ok" then NotMoved(c, v)
    else
      match LegsOf(reply)
      case None => Crashed("no legs in the routing reply")
      case Some(legs) => Advance(c, v, m, Plan(legs, interpolate), 0)
  }

  function Rank(m: Movement): nat {
    match m
    case Collecting(_) => 2
    case Disposing(_) => 1
    case Homing => 0
  }

  /** The one-minute wait that ends every loop. */
  function Rest(c: City, v: Vehicle): Transition {
    Yield(c, v.(pc := Resting), RestSeconds)
  }

  /** Carries on after a movement's progress: a suspension is returned as it is; after
      the collecting movement comes the disposal movement; a completed disposal
      movement starts the unload, which empties the vehicle; a failed disposal
      movement skips the unload, so the load stays on board; either way the order is
      then dropped, and the loop ends with the one-minute wait. */
  function Continue(m: Movement, p: Progress, router: Router, interpolate: Interpolator): (r: Transition)
    requires Fits(m, p)
    ensures p.Crashed? ==> r.Fault?
    ensures r.Yield? ==> !p.Crashed? && r.city == p.city && r.delay == Delay(r.vehicle.pc) && r.vehicle.pc != Start
    ensures r.Yield? ==> r.vehicle.uid == p.vehicle.uid && r.vehicle.capacity == p.vehicle.capacity
    ensures r.Yield? && r.vehicle.order.Some? ==> r.vehicle.order == p.vehicle.order
    ensures r.Yield? && r.vehicle.pc.Driving? && r.vehicle.pc.movement.Collecting? ==> r.vehicle.pc.movement == m
    ensures r.Yield? && r.vehicle.pc.Loading? ==> m.Collecting? && r.vehicle.pc.order == m.order
    ensures r.Yield? && r.vehicle.pc.Loading? ==> p.Suspended? && r.vehicle == p.vehicle
    decreases Rank(m)
  {
    match p
    case Crashed(e) => Fault(e)
    case Suspended(c, v, d) => Yield(c, v, d)
    case Arrived(c, v) => Finish(m, c, v, true, router, interpolate)
    case NotMoved(c, v) => Finish(m, c, v, false, router, interpolate)
  }

  function Finish(m: Movement, c: City, v: Vehicle, arrived: bool, router: Router, interpolate: Interpolator): (r: Transition)
    ensures r.Yield? ==> r.city == c && r.delay == Delay(r.vehicle.pc) && r.vehicle.pc != Start
    ensures r.Yield? ==> r.vehicle.uid == v.uid && r.vehicle.capacity == v.capacity
    ensures r.Yield? && r.vehicle.order.Some? ==> r.vehicle.order == v.order
    ensures r.Yield? && r.vehicle.pc.Driving? ==> !r.vehicle.pc.movement.Collecting?
    ensures r.Yield? ==> !r.vehicle.pc.Loading?
    decreases Rank(m), 0
  {
    match m
    case Collecting(o) => Continue(Disposing(o), Move(c, v, Disposing(o), router, interpolate), router, interpolate)
    case Disposing(_) =>
      if arrived then Yield(c, v.(value := 0, pc := Unloading), UnloadSeconds)
      else Rest(c, v.(order := None))
    case Homing => Rest(c, v)
  }

  /** `dispatchers[0].get_order(...)`: the first dispatcher, and only it, is asked. */
  function Claim(c: City, vehicle: VehicleId): (r: (City, Option<Order>))
    requires |c.dispatchers| > 0
    ensures r.0.now == c.now && r.0.dumpsters == c.dumpsters && r.0.log == c.log
    ensures |r.0.dispatchers| == |c.dispatchers| && r.0.dispatchers[1..] == c.dispatchers[1..]
    ensures (r.0.dispatchers[0].orders, r.1) == Dispatching.GetOrder(c.dispatchers[0].orders, vehicle)
    ensures Consistent(c) ==> Consistent(r.0) && (r.1.Some? ==> Known(c, r.1.value))
  {
    var d := c.dispatchers[0];
    var (orders', got) := Dispatching.GetOrder(d.orders, vehicle);
    var r := c.(dispatchers := c.dispatchers[0 := d.(orders := orders')]);
    ClaimConsistent(c, vehicle, r, got);
    (r, got)
  }

  lemma ClaimConsistent(c: City, vehicle: VehicleId, r: City, got: Option<Order>)
    requires |c.dispatchers| > 0
    requires var d := c.dispatchers[0];
      var (orders', got') := Dispatching.GetOrder(d.orders, vehicle);
      r == c.(dispatchers := c.dispatchers[0 := d.(orders := orders')]) && got == got'
    ensures Consistent(c) ==> Consistent(r) && (got.Some? ==> Known(c, got.value))
  {
    var d := c.dispatchers[0];
    var orders' := Dispatching.GetOrder(d.orders, vehicle).0;
    Dispatching.ClaimIsSetOnce(d.orders, vehicle);
    assert forall k :: k in orders'.entries ==> orders'.entries[k].dumpsters == d.orders.entries[k].dumpsters;
    SameListsConsistent(c, orders', r);
    if Consistent(c) && got.Some? {
      var k := d.orders.keys[Dispatching.FirstFree(d.orders).value];
      assert got.value.dumpsters == d.orders.entries[k].dumpsters;
    }
  }

  /** Replacing the first dispatcher's orders by ones with the same uids and the same
      site lists keeps the city consistent. */
  lemma SameListsConsistent(c: City, orders': Dispatching.Orders, r: City)
    requires |c.dispatchers| > 0
    requires r == c.(dispatchers := c.dispatchers[0 := c.dispatchers[0].(orders := orders')])
    requires orders'.entries.Keys == c.dispatchers[0].orders.entries.Keys
    requires forall k :: k in orders'.entries ==> orders'.entries[k].dumpsters == c.dispatchers[0].orders.entries[k].dumpsters
    ensures Consistent(c) ==> Consistent(r)
  {
    if Consistent(c) {
      forall u | u in r.dumpsters.entries && r.dumpsters.entries[u].orderUid.Some?
        ensures Backed(r, u, r.dumpsters.entries[u].orderUid.value)
      {
        var o := r.dumpsters.entries[u].orderUid.value;
        assert Backed(c, u, o);
        var j :| 0 <= j < |c.dispatchers| && o in c.dispatchers[j].orders.entries
          && u in c.dispatchers[j].orders.entries[o].dumpsters;
        assert o in r.dispatchers[j].orders.entries && u in r.dispatchers[j].orders.entries[o].dumpsters;
      }
    }
  }

  /** The movement that follows the top of the loop: collecting when the vehicle has an
      order, otherwise the drive to the garage. */
  function Depart(c: City, v: Vehicle, router: Router, interpolate: Interpolator): (r: Transition)
    requires Ready(c, v)
    ensures r.Yield? ==> r.city.now == c.now && r.city.log == c.log && r.city.dumpsters == c.dumpsters
    ensures r.Yield? ==> r.city.dispatchers == c.dispatchers
    ensures r.Yield? ==> r.delay == Delay(r.vehicle.pc) && r.vehicle.pc != Start && Ready(r.city, r.vehicle)
    ensures r.Yield? ==> r.vehicle.uid == v.uid && r.vehicle.capacity == v.capacity
  {
    match v.order
    case Some(o) =>
      var r := Continue(Collecting(o), Move(c, v, Collecting(o), router, interpolate), router, interpolate);
      assert r.Yield? ==> Ready(r.city, r.vehicle);
      r
    case None =>
      Continue(Homing, Move(c, v, Homing, router, interpolate), router, interpolate)
  }

  /** The top of the loop: with no order the first dispatcher is asked for one; with
      an order the collecting movement starts, otherwise the drive to the garage. */
  function Top(c: City, v: Vehicle, router: Router, interpolate: Interpolator): (r: Transition)
    requires Ready(c, v)
    ensures v.order.None? && |c.dispatchers| == 0 ==> r.Fault?
    ensures r.Yield? ==> r.city.now == c.now && r.city.log == c.log && r.city.dumpsters == c.dumpsters
    ensures r.Yield? ==> |r.city.dispatchers| == |c.dispatchers| && (forall j :: 1 <= j < |c.dispatchers| ==> r.city.dispatchers[j] == c.dispatchers[j])
    ensures r.Yield? && v.order.Some? ==> r.city.dispatchers == c.dispatchers
    ensures r.Yield? ==> r.delay == Delay(r.vehicle.pc) && r.vehicle.pc != Start && Ready(r.city, r.vehicle)
    ensures r.Yield? ==> r.vehicle.uid == v.uid && r.vehicle.capacity == v.capacity
  {
    if v.order.None? && |c.dispatchers| == 0 then Fault("no dispatcher to ask")
    else
      var (c1, order) := if v.order.None? then Claim(c, v.uid) else (c, v.order);
      var v1 := v.(order := order);
      assert Ready(c1, v1) by {
        assert Consistent(c1);
        if order.Some? {
          assert Known(c1, order.value);
        }
      }
      Depart(c1, v1, router, interpolate)
  }

  /** One resumption of the vehicle's process at the city's current time. Callbacks
      registered on the awaited event run first: after a one-second tick the state is
      recorded when the time is a multiple of ten; after a load or an unload it is
      always recorded. Then a completed load empties its site, a completed unload
      closes the order and starts the one-minute wait, and a completed wait returns to
      the top of the loop. */
  function Resume(c: City, v: Vehicle, router: Router, interpolate: Interpolator): (r: Transition)
    requires Ready(c, v)
    ensures r.Yield? ==> r.delay == Delay(r.vehicle.pc) && r.vehicle.pc != Start
    ensures r.Yield? ==> Ready(r.city, r.vehicle)
    ensures r.Yield? ==> r.city.now == c.now && r.vehicle.uid == v.uid && r.vehicle.capacity == v.capacity
    ensures r.Yield? ==> |r.city.dispatchers| == |c.dispatchers| && (forall j :: 1 <= j < |c.dispatchers| ==> r.city.dispatchers[j] == c.dispatchers[j])
    ensures r.Yield? ==> r.city.dumpsters.keys == c.dumpsters.keys
    ensures r.Yield? ==> c.log.vehicleStates <= r.city.log.vehicleStates
    ensures r.Yield? ==> r.city.log.dispatcherStates == c.log.dispatcherStates
  {
    match v.pc
    case Start => Top(c, v, router, interpolate)
    case Resting => Top(c, v, router, interpolate)
    case Driving(m, plan, i) =>
      var c1 := if c.now % SnapshotPeriod == 0 then Record(c, v) else c;
      var r := Continue(m, Advance(c1, v, m, plan, i + 1), router, interpolate);
      assert r.Yield? ==> Ready(r.city, r.vehicle);
      r
    case Loading(o, plan, i, u) =>
      var c2 := ClearSite(Record(c, v), u);
      var r := Continue(Collecting(o), Advance(c2, v, Collecting(o), plan, i + 1), router, interpolate);
      assert r.Yield? ==> Ready(r.city, r.vehicle);
      r
    case Unloading => Rest(Record(c, v), v.(order := None))
  }

  // ---------------------------------------------------------------------------
  // Properties

  lemma {:induction false} LegEndsAppend(a: seq<Event>, b: seq<Event>)
    ensures CountLegEnds(a + b) == CountLegEnds(a) + CountLegEnds(b)
    decreases |a|
  {
    if |a| == 0 {
      assert a + b == b;
    } else {
      assert (a + b)[1..] == a[1..] + b;
      LegEndsAppend(a[1..], b);
    }
  }

  lemma {:induction false} LegTicksShape(steps: seq<Step>, interpolate: Interpolator)
    ensures |LegTicks(steps, interpolate)| == StepsTicks(steps)
    ensures forall k :: 0 <= k < |LegTicks(steps, interpolate)| ==> LegTicks(steps, interpolate)[k].Tick?
    ensures CountLegEnds(LegTicks(steps, interpolate)) == 0
    decreases |steps|
  {
    if |steps| > 0 {
      var head := StepTicks(steps[0], interpolate);
      LegTicksShape(steps[1..], interpolate);
      NoLegEnds(head);
      LegEndsAppend(head, LegTicks(steps[1..], interpolate));
    }
  }

  lemma {:induction false} NoLegEnds(plan: seq<Event>)
    requires forall k :: 0 <= k < |plan| ==> plan[k].Tick?
    ensures CountLegEnds(plan) == 0
    decreases |plan|
  {
    if |plan| > 0 {
      NoLegEnds(plan[1..]);
    }
  }

  /** The drive of a route has one leg end per leg and one tick per half second of
      (rounded) step duration, so it takes that many one-second waits. */
  lemma {:induction false} PlanShape(legs: seq<Leg>, interpolate: Interpolator)
    ensures CountLegEnds(Plan(legs, interpolate)) == |legs|
    ensures |Plan(legs, interpolate)| == |legs| + RouteTicks(legs)
    decreases |legs|
  {
    if |legs| > 0 {
      var ticks := LegTicks(legs[0].steps, interpolate);
      LegTicksShape(legs[0].steps, interpolate);
      PlanShape(legs[1..], interpolate);
      LegEndsAppend(ticks, [LegEnd]);
      LegEndsAppend(ticks + [LegEnd], Plan(legs[1..], interpolate));
      assert CountLegEnds([LegEnd]) == 1 by {
        assert [LegEnd][1..] == [];
      }
    }
  }

  /** Tick `n` of a step stands at fraction `n / count` of its path, and the step has
      no ticks at all when twice its duration rounds to zero or below. */
  lemma StepTickPositions(s: Step, interpolate: Interpolator, n: nat)
    requires n < |StepTicks(s, interpolate)|
    ensures RoundHalfEven(s.duration * 2.0) > 0
    ensures StepTicks(s, interpolate)[n] == Tick(interpolate(s.geometry, n as real / TickCount(s) as real))
  {
  }

  /** On a tick the state is logged exactly when the time is a multiple of ten. */
  lemma DrivingSnapshot(c: City, v: Vehicle, router: Router, interpolate: Interpolator)
    requires Ready(c, v) && v.pc.Driving?
    ensures var r := Resume(c, v, router, interpolate);
      r.Yield? ==> r.city.log == if c.now % SnapshotPeriod == 0 then SetVehicleState(c.log, State(v, c.now)) else c.log
  {
  }

  /** A completed load logs the state and empties its site, which leaves its order;
      no other site changes. */
  lemma LoadEmptiesSite(c: City, v: Vehicle, router: Router, interpolate: Interpolator)
    requires Ready(c, v) && v.pc.Loading?
    ensures var r := Resume(c, v, router, interpolate);
      r.Yield? ==>
        && r.city.log == SetVehicleState(c.log, State(v, c.now))
        && r.city.dumpsters.entries == c.dumpsters.entries[v.pc.site := Clear(c.dumpsters.entries[v.pc.site])]
  {
  }

  /** The load found at a leg end is exactly what the matched site held. */
  lemma LoadAddsSiteValue(c: City, v: Vehicle, o: Order, plan: seq<Event>, i: nat)
    requires Known(c, o)
    requires var r := Advance(c, v, Collecting(o), plan, i); r.Suspended? && r.vehicle.pc.Loading?
    ensures var r := Advance(c, v, Collecting(o), plan, i);
      && r.vehicle.value == v.value + c.dumpsters.entries[r.vehicle.pc.site].value
      && r.vehicle.position == v.position
      && r.vehicle.pc.site in o.dumpsters
  {
  }

  /** A completed unload logs the state, drops the order and starts the wait; what was
      unloaded is already gone. */
  lemma UnloadClosesOrder(c: City, v: Vehicle, router: Router, interpolate: Interpolator)
    requires Ready(c, v) && v.pc.Unloading?
    ensures Resume(c, v, router, interpolate)
      == Yield(Record(c, v), v.(order := None, pc := Resting), RestSeconds)
  {
  }

  /** When the disposal route reaches the landfill the vehicle is emptied at once and
      waits the twenty minutes of the unload. */
  lemma DisposalEmpties(c: City, v: Vehicle, o: Order, router: Router, interpolate: Interpolator)
    ensures Finish(Disposing(o), c, v, true, router, interpolate)
      == Yield(c, v.(value := 0, pc := Unloading), UnloadSeconds)
  {
  }

  /** When the landfill cannot be routed to, the vehicle does not move, keeps its load,
      drops its order and waits a minute. */
  lemma DisposalFailureKeepsLoad(c: City, v: Vehicle, o: Order, arrived: bool, router: Router, interpolate: Interpolator)
    requires router(Request(RouteService, [v.position, o.target])).code != "Ok"
    ensures Finish(Collecting(o), c, v, arrived, router, interpolate)
      == Yield(c, v.(order := None, pc := Resting), RestSeconds)
  {
    assert [v.position] + Waypoints(c, v, Disposing(o)) == [v.position, o.target];
    var p := Move(c, v, Disposing(o), router, interpolate);
    assert p == NotMoved(c, v);
    assert Continue(Disposing(o), p, router, interpolate) == Finish(Disposing(o), c, v, false, router, interpolate);
  }

  /** An idle vehicle asks only the first dispatcher, and only that dispatcher's orders
      can change; a vehicle that still holds an order asks nobody. */
  lemma OnlyFirstDispatcher(c: City, v: Vehicle, router: Router, interpolate: Interpolator)
    requires Ready(c, v) && (v.pc.Start? || v.pc.Resting?)
    ensures var r := Resume(c, v, router, interpolate);
      && (v.order.None? && |c.dispatchers| == 0 ==> r.Fault?)
      && (r.Yield? ==> forall j :: 1 <= j < |c.dispatchers| ==> r.city.dispatchers[j] == c.dispatchers[j])
      && (r.Yield? && v.order.Some? ==> r.city.dispatchers == c.dispatchers)
  {
  }
}

=== FILE: wrappers.dfy ===
/** Failure-carrying datatypes shared by every module of the model. */
module Wrappers {

  /** A value that may be absent: Python's `None` or a missing dictionary key. */
  datatype Option<+T> = None | Some(value: T) {
    predicate IsFailure() {
      None?
    }

    function PropagateFailure<U>(): Option<U>
      requires None?
    {
      None
    }

    function Extract(): T
      requires Some?
    {
      value
    }
  }

  /** The outcome of a call that may raise: `Failure` carries the exception it raised. */
  datatype Result<+R, +E> = Success(value: R) | Failure(error: E) {
    predicate IsFailure() {
      Failure?
    }

    function PropagateFailure<U>(): Result<U, E>
      requires Failure?
    {
      Failure(error)
    }

    function Extract(): R
      requires Success?
    {
      value
    }
  }
}
